=== FILE: README.md ===
# Weather radar bot — a Dafny model of its deterministic core

`weather.js` is a chat bot that draws an animated precipitation map as rows of
coloured-square emoji. The map is split across several chat messages
("segments"), and the bot keeps editing them to animate the picture. This
project models the logic under that plumbing and proves properties about it:

- **Partition** (`partition.dfy`): how the `height` map rows are cut into
  `ceil(height / rowsPerMessage)` row ranges. The ranges are non-empty,
  ascending and disjoint, and together they cover the map.
- **Field** (`field.dfy`): the category of each map cell. This covers the
  clear-sky short-circuit, the intensity formula (precipitation, front term,
  storm band), the six-step threshold ladder and the eight-entry symbol table.
  `Math.sin`, `Math.cos`, `Math.sqrt` and number-to-text formatting are fields
  of a `Runtime` value. Every property holds whatever those functions return,
  unless a lemma asks for sin and cos to lie in [-1, 1].
- **Frame** (`frame.dfy`): one segment's message. The full map is rendered
  and then sliced with JavaScript `slice` semantics. The first segment gets
  the nine-`unshift` header, and the lines are joined with newlines.
- **Observation** (`observation.dfy`): the forecast cache and its 300000 ms
  freshness rule, the reading the renderer takes from a response, and the
  severe-weather test.
- **Locations** (`locations.dfy`): the choice among geocoding results, and
  the loop that probes up to fifteen random cities for severe weather.
- **Display** (`display.dfy`): the `RadarDisplay` controller as an immutable
  record with one operation per method of the class:
  - `createDisplay`, one cycle of `startAnimation` (with the in-place splice
    of segments whose edit reports "unknown message"), `stopAnimation`,
    `removeDisplay` and `changeLocation`;
  - the `.radar` and `.stop` command sequences.

  The chat client is not modelled. Its answers come in as parameters
  (`SendResult`, `EditResult`). Each operation returns the calls it makes
  as a `SinkCall` log, and every send or edit carries the `Render` (phase,
  row window, observation, location, date/time text) whose `RenderText` is
  the message text. What the clock, the locale date/time and each forecast
  fetch returned for an operation's `j`-th render comes in as `ticks[j]`.

The list operations are paired with reference definitions (`Created`,
`Survivors`, `CacheAfter`, `Ranges`), the drawing and joining of text with
inverses (`DecodeRow`, `SplitLines`), and the lemmas connect the two. The
smaller helpers carry lemmas that state what their output holds.

### A failed fetch drops the observation

A failed fetch does not fall back to the previous observation.
`fetchWeatherData` returns `null` on any error (weather.js:107-110), and the
render stores that result and stamps the clock (weather.js:228-231). The held
observation is gone, the map is drawn blank, and the next render fetches
again. See `Observation.FailedFetchDropsData` and
`Display.FailedFetchBlanksFrame`.

## Model

| member | source | states |
|---|---|---|
| Observation.ReadingOf | weather.js:234-240 | The reading is precipitation and weather code, each `|| 0`. Without a response, or without a `current` block, it is the clear-sky reading, which is not severe. |
| Observation.IsSevere | weather.js:196-201 | The severity test: precipitation above 1.0, or a code of 95 or more, or a code in 71-77, 61-67 or 45-48, all bounds inclusive. |
| Observation.SevereIsNotClearSky | weather.js:196-201 | A severe reading is never the renderer's clear-sky case: it has positive precipitation or a code above 3. |
| Observation.SevereMonotoneInPrecip | weather.js:196-201 | At the same weather code, more precipitation never turns a severe reading into an ordinary one. |
| Observation.ProbeQualifiesIffSevereReading | weather.js:192-201 | Requiring a response with a `current` block changes nothing: a probe qualifies exactly when the reading taken from it is severe. |
| Observation.Refresh | weather.js:227-231 | A render changes the cache only when the cache is stale. When it does, the new cache is stamped with the current time. |
| Observation.RefreshDecision | weather.js:228-231 | Stale means nothing is held or the age is strictly above 300000 ms. A stale cache is overwritten with the fetch result and the time. A fresh one is left alone. An age of exactly 300000 ms is still fresh. |
| Observation.SuccessfulFetchIsReused | weather.js:228-231 | After a successful refetch, every render within 300000 ms keeps that response and its time, whatever it would have fetched. |
| Observation.FailedFetchDropsData | weather.js:107-110 | A failed refetch leaves no data, with no fallback to the old value. The very next render refetches, however soon it comes. |
| Locations.FirstUsResult | weather.js:79-81 | Returns the index of the first result with a non-empty country that is the United States or has code US, or none when no result qualifies. |
| Locations.LocationOf | weather.js:84-89 | The location keeps the result's coordinates. Its name is the result's name, then ", ", then the country as a template string shows it: the text itself, "null" for `null`, "undefined" when absent. |
| Locations.MissingCountryName | weather.js:86 | A result with a `null` country is named "<name>, null"; one without a country is named "<name>, undefined". |
| Locations.ChooseLocation | weather.js:76-93 | There is no location exactly when the result list is absent or empty. Otherwise the location comes from the first US result, or from result 0 when there is no US result. |
| Locations.FindActiveLocation | weather.js:188-223 | Returns the candidate of the first of the 15 probes whose forecast is severe, reporting how many probes were used and that none before it qualified. When no probe qualifies, all 15 were tried and the fallback draw is returned. The result is always one of the candidate cities. |
| Field.Ladder | weather.js:267-272 | The category is in 0..5. It reaches k exactly when the intensity reaches the k-th cut point, 0.1, 0.5, 1.0, 2.5 or 5.0. |
| Field.LadderMonotone | weather.js:267-272 | A larger intensity never gets a smaller category. |
| Field.Intensity | weather.js:255-265 | The intensity is precipitation plus half the front term, plus a storm-band term between 0 and 3.2. The storm term is exactly 0 unless precipitation exceeds 1.0. |
| Field.StormTerm | weather.js:260-265 | The storm-band contribution lies in [0, 3.2], whatever sqrt and sin return. |
| Field.CellCategory | weather.js:246-273 | A cell's category is in 0..5, and it is positive only when precipitation is positive or the code is above 3. |
| Field.Grid | weather.js:242-279 | The map has `height` rows of exactly 22 cells, whatever width is configured. Cell (x, y) holds that cell's category. |
| Field.RowText | weather.js:275-278 | A drawn row has one character per cell, each one taken from the symbol table. |
| Field.SymbolsDistinct | weather.js:65 | The eight table symbols are distinct, so a symbol identifies its category. |
| Field.DecodeRowText | weather.js:65 | Drawing a row of categories loses nothing: reading the symbols back gives the same categories. |
| Field.MapRow | weather.js:245 | Each drawn map row has exactly 22 characters, one per column of the fixed 22-column loop. |
| Field.MapRowIsGridRow | weather.js:243-276 | Map row y is the drawing of row y of the grid: reading its symbols back gives exactly the categories of the cells (0, y) .. (21, y). |
| Field.ClearSkyIsBlank | weather.js:246-249 | With precipitation 0 and a code at most 3, every cell is category 0 and every row is 22 clear squares, for any phase. |
| Field.CategoryMonotoneInPrecip | weather.js:255-272 | At a fixed cell, phase and code, raising the precipitation never lowers the category. |
| Field.ReservedSymbolsUnused | weather.js:65 | The hail and tornado symbols (entries 6 and 7) never appear in a drawn row. |
| Field.FrontBounded | weather.js:257-258 | With sin and cos in [-1, 1], the front term lies in [-1, 1]. |
| Field.HeavyRainSaturates | weather.js:255-272 | With bounded trigonometry, precipitation of 5.5 or more puts every cell in category 5. |
| Field.LightRainCapped | weather.js:255-272 | With bounded trigonometry, precipitation below 0.5 never gives a cell a category above 2. |
| Frame.SliceBound | weather.js:281 | A slice bound is clamped into [0, length], and an in-range bound is kept. |
| Frame.JsSlice | weather.js:281 | Within range, `slice` is the plain subsequence. It is never longer than its input, and every element comes from the input. |
| Frame.WeatherInfo | weather.js:287-293 | The weather summary is never empty when a `current` block is held. |
| Frame.TemperatureShown | weather.js:289-292 | The summary opens with the thermometer label and then the temperature as `Math.round` gives it: "NaN" when the field is absent, 0 (as the runtime shows it) when it is `null`, the rounded value otherwise. |
| Frame.WithHeader | weather.js:305-313 | The nine `unshift` calls add 9 lines, or 8 when the weather line is empty. The first line is the divider, and the rows follow unchanged. |
| Frame.HeaderLayout | weather.js:305-313 | The nine `unshift` calls leave the header in reverse call order: divider, commands, legend 2, legend 1, legend title, separator, the weather line when present, date/time, and the title directly above the rows. The rows follow unchanged. |
| Frame.MapRows | weather.js:242-279 | The rendered map has `height` rows, and row y is the drawing of row y of the field. |
| Frame.FrameLines | weather.js:281-314 | A first-segment frame holds at least the whole header and opens with the divider. Any other frame holds no more lines than the map has rows. |
| Frame.FrameRows | weather.js:281-316 | For a window inside the map, the lines after the header are exactly rows startRow..endRow-1 of the full map, in order. The first window has 9 header lines before them (8 with no observation); any other window has nothing before them. |
| Frame.FrameHeader | weather.js:283-314 | The first window's frame opens with the divider and ends its header with the title. The header has 9 lines exactly when a response with a `current` block is held. |
| Frame.FrameBodyIsMap | weather.js:281-283 | A window not starting at row 0 holds only map lines, so no header line (the divider is not a map line). |
| Frame.NoObservationBlankMap | weather.js:234-249 | Without a response, or without its `current` block, the renderer reads precipitation 0 and code 0, so every map row is 22 clear squares at any phase. |
| Frame.Join | weather.js:316 | The joined text starts with the first line, with a newline right after it when more lines follow. Its length is the total length of the lines plus one separator for each pair of neighbours. |
| Frame.SplitJoin | weather.js:316 | Joining lines with newlines is undone by splitting at newlines, provided no line holds a newline. |
| Frame.BodyFrameRoundTrip | weather.js:281-316 | The text of a non-first segment splits back into exactly its frame lines. |
| Partition.SegmentCount | weather.js:327 | The segment count is the ceiling of height over rows per message: the segments reach the bottom of the map, and one fewer would not. |
| Partition.Ranges | weather.js:333-336 | Range i is [i·rows, min((i+1)·rows, height)), for each of the `SegmentCount` segments. |
| Partition.RowOwner | weather.js:333-336 | Row y lies in segment y / rows. |
| Partition.RangesAscending | weather.js:333-336 | Every range is non-empty and inside [0, height). Ranges are pairwise disjoint in ascending order, and each one ends where the next starts. |
| Partition.RangesCover | weather.js:327-336 | There is a range exactly when the map has rows. The first starts at 0, the last ends at `height`, and every row lies in a range. |
| Partition.OnlyFirstStartsAtZero | weather.js:335 | Only segment 0 starts at row 0, so exactly one message carries the header. |
| Display.DefaultRanges | weather.js:31-36 | The built-in settings (7 rows per message, 21 rows) are valid and give three segments: [0,7), [7,14) and [14,21). |
| Display.NewDisplay | weather.js:319-328 | A new controller has no segments, is not animating, is at phase 0 and holds no observation. |
| Display.BuildPattern | weather.js:226-231 | A render leaves the cache untouched, or, when it was stale, replaces it with the fetch result stamped with the time. The frame draws from the cache the render leaves behind, at the given phase, window and location. |
| Display.FailedFetchBlanksFrame | weather.js:228-249 | A render whose refetch fails draws from no observation and leaves none behind, so its map is blank. |
| Display.ReusedWithinTtl | weather.js:228-231 | After a successful fetch, renders no later than 300000 ms after it leave the cache unchanged. |
| Display.RenderAt | weather.js:226-231 | The j-th render of an operation draws at the given phase, window and location. It draws from the observation held after the first j+1 freshness checks. |
| Display.CreatedMembers | weather.js:333-361 | Every created segment comes from a range whose send succeeded, with the handle that send returned. Every successful send yields a segment. |
| Display.CreatedAscending | weather.js:333-361 | When sends fail, the created segments still keep the order of the ranges and are each one of them. |
| Display.SurvivorsAscending | weather.js:389-399 | Pruning keeps the remaining segments in their order and invents none. |
| Display.SurvivorsDrawnFrom | weather.js:389-399 | Pruning only removes: every survivor was in the list before. |
| Display.SurvivorsKeepAll | weather.js:389-399 | When no edit reports "unknown message", no segment is removed. |
| Display.SurvivorsPruneOne | weather.js:394-397 | When exactly one segment's edit reports "unknown message", exactly that segment is removed and the others keep their order. |
| Display.SurvivorsMembership | weather.js:389-399 | A segment survives a cycle exactly when its edit did not fail with code 10008. Any other failure removes nothing. |
| Display.SpliceStep | weather.js:394-396 | One visit of the splice loop: the segment at index i is the next one to visit. A splice followed by `i--` moves on to the following segment, with the visited survivors unchanged. |
| Display.CreateDisplay | weather.js:330-365 | One message is sent per range, top to bottom, each rendering its range at the current phase. The segments of successful sends are appended to the list in order, and the cache is whatever the renders left. |
| Display.StartAnimation | weather.js:367-369 | Starting sets the running flag. It does anything only when the animation was not already running, and nothing else changes. |
| Display.StopAnimation | weather.js:418-421 | Stopping clears the running flag and changes nothing else. |
| Display.EditPass | weather.js:379-404 | Each segment present at the start is rendered and edited exactly once, in order. The list afterwards is the survivors of those edits. |
| Display.AnimationCycle | weather.js:374-404 | When not running, nothing happens. Otherwise the phase advances by 0.1 and the event phase by 0.05, every segment is edited with a frame at the new phase, and the list becomes the survivors. An ascending list stays ascending, and only segments already in the list remain. |
| Display.RemoveDisplay | weather.js:423-437 | One delete is issued per segment, in order, and the list ends up empty whatever the deletes answered. The running flag is untouched. |
| Display.ChangeLocation | weather.js:439-479 | The location is replaced and both phases reset to 0. The cache starts from the up-front fetch for the new place. Every segment is re-edited at phase 0 with its rows and message unchanged, and nothing is pruned. |
| Display.ChangeLocationFetches | weather.js:441-449 | The forecast is fetched once up front. If that fetch succeeded, every re-render within the TTL draws from it. If it failed, the first re-render fetches again. |
| Display.ShowRadar | weather.js:494-503 | After `.radar`, the animation runs and the list is exactly the created segments. They are ascending, each one a range of the ideal partition. Location, phase and event phase are unchanged; the cache is what the create renders leave. The calls are one delete per old message, then one send per range, in order, each drawing range i at the current phase from the cache after i + 1 freshness checks. |
| Display.StopRadar | weather.js:505-508 | After `.stop`, the animation flag is off and the list is empty, with one delete per old segment. |

## Left out

- The chat client (login, send, edit, delete, replies). Its answers are parameters, and its calls are the returned `SinkCall` log.
- HTTP requests to the forecast and geocoding services and their time-outs. The response, or its absence, is a parameter.
- `setTimeout` pacing between calls, and the unbounded `while` loop of `startAnimation`. One pass of the loop is `AnimationCycle`. The `.radar` command only records that the flag is set.
- Concurrency: the animation loop and commands interleave at every `await` in the source. Each operation is modelled as if it ran alone.
- Floating point: phases and intensities are exact reals, so the drift of repeatedly adding 0.1 and NaN arithmetic are not modelled. Only the header's rounding of an absent temperature to NaN is modelled.
- Strings are sequences of Unicode code points. A JavaScript string's `.length` counts UTF-16 units, so a 22-cell row, whose coloured squares take two units each, has a JavaScript length between 22 and 44.
- The values of `Math.sin`, `Math.cos`, `Math.sqrt` and number-to-text formatting are abstract (`Runtime`).
- Locale date and time strings come in as parameters.
- `Math.random` in the location search. The draws are parameters (`Probe.pick`, `fallback`).
- Command-text parsing and the `.location`/`.random`/`.help` replies.
- Configuration-file loading. The settings are a `Config` parameter of every operation; `DefaultConfig` holds the built-in fallback values. The default location is not modelled: the starting location is a parameter of `NewDisplay`.
- Console logging and the cycle counter, which only drives log lines.
- The unused storm symbol table (weather.js:66). `eventPhase` is modelled only as far as it is advanced and reset.
- Display.CreateDisplay: a non-positive `rowsPerMessage` is excluded (`ValidConfig`). The source would make `Math.ceil` infinite or NaN and loop without end or send nothing.
- Display.AnimationCycle: the sleep of `animationSpeed / messages.length` ms is not modelled, including the division by zero after the last segment is pruned.

=== FILE: display.dfy ===
/**
 The multi-message radar display: an ordered list of segments, each a chat
 message showing one row range of the map, kept animating together.

 The chat client is not modelled. Every call the display makes on it is
 returned as a `SinkCall`, and what the client answered comes in as a
 parameter: a `SendResult` per message sent, an `EditResult` per edit.
 Each render reads the clock and may fetch a forecast; what the clock said
 and what the fetch returned for the `j`-th render of an operation is
 `ticks[j]`. Sleeps between calls are not modelled.
 */
module Display {
  import opened Observation
  import opened Field
  import opened Frame
  import opened Partition

  /** The radar settings: rows per message, map height and width, animation period in ms. */
  datatype Config = Config(rowsPerMessage: int, height: nat, width: int, animationSpeed: int)

  /** Rows per message must be positive, or the segment count is not finite. */
  predicate ValidConfig(cfg: Config) {
    cfg.rowsPerMessage > 0
  }

  /** The settings used when no configuration file is present. */
  const DefaultConfig: Config := Config(7, 21, 22, 300)

  /** The default settings give three segments: rows [0,7), [7,14) and [14,21). */
  lemma DefaultRanges()
    ensures ValidConfig(DefaultConfig)
    ensures Ranges(DefaultConfig.height, DefaultConfig.rowsPerMessage)
            == [RowRange(0, 7), RowRange(7, 14), RowRange(14, 21)]
  {
    assert SegmentCount(21, 7) == 3;
  }

  /** Identity of a sent chat message. */
  type Handle = nat

  /** One message of the display and the rows [startRow, endRow) it shows. */
  datatype Segment = Segment(handle: Handle, startRow: int, endRow: int)

  /**
   The display controller together with the process-wide state it drives:
   the active location and the observation cache.
   */
  datatype RadarDisplay = RadarDisplay(
    segments: seq<Segment>,
    phase: real,
    eventPhase: real,
    running: bool,
    location: Location,
    cache: Cache)

  /** What one render saw: the clock, the fetch result if a fetch was made, and the locale date/time text. */
  datatype Tick = Tick(now: int, fetched: Option<WeatherData>, date: string, time: string)

  /**
   Everything one call of the renderer draws from: phase, map height, row
   window, the observation held after the freshness check, the location and
   the date/time text. The message text is `RenderText` of it.
   */
  datatype Render = Render(
    phase: real,
    height: nat,
    startRow: int,
    endRow: int,
    data: Option<WeatherData>,
    location: Location,
    date: string,
    time: string)

  /** The message text of a render. */
  function RenderText(rt: Runtime, r: Render): string {
    FrameText(rt, r.phase, r.height, r.startRow, r.endRow, r.data, r.location, r.date, r.time)
  }

  /** A call on the chat client; sends and edits carry the render whose text they post. */
  datatype SinkCall = Send(frame: Render) | Edit(handle: Handle, frame: Render) | Delete(handle: Handle)

  /** The client's answer to sending a message. */
  datatype SendResult = Sent(handle: Handle) | SendFailed

  /** The client's answer to editing a message; `code` is the error code. */
  datatype EditResult = Edited | EditFailed(code: int)

  /** The chat platform's "Unknown Message" error code. */
  const UnknownMessage: int := 10008

  /** An edit failed because the message no longer exists. */
  predicate Gone(e: EditResult) {
    e.EditFailed? && e.code == UnknownMessage
  }

  /** The state at start-up: no segments, phase 0, nothing fetched. */
  function NewDisplay(loc: Location): (d: RadarDisplay)
    ensures d.segments == [] && !d.running && d.phase == 0.0 && d.cache.data.None?
  {
    RadarDisplay([], 0.0, 0.0, false, loc, EmptyCache)
  }

  // ---------------------------------------------------------------------
  // Reference definitions
  // ---------------------------------------------------------------------

  /** The cache after the renders of `ticks`, in order. */
  function CacheAfter(c: Cache, ticks: seq<Tick>): Cache {
    if |ticks| == 0 then c
    else
      var last := ticks[|ticks| - 1];
      Refresh(CacheAfter(c, ticks[..|ticks| - 1]), last.now, last.fetched)
  }

  /** A render's result: the cache after its freshness check, and what was drawn. */
  datatype Built = Built(cache: Cache, frame: Render)

  /**
   One render of rows [startRow, endRow): refresh the cache if it is stale,
   then draw the frame from whatever the cache now holds.
   */
  function BuildPattern(cfg: Config, loc: Location, c: Cache, phase: real,
                        startRow: int, endRow: int, t: Tick): (b: Built)
    ensures b.frame.data == b.cache.data
    ensures b.cache == c || (Stale(c, t.now) && b.cache == Cache(t.fetched, t.now))
    ensures b.frame.phase == phase && b.frame.height == cfg.height && b.frame.location == loc
    ensures b.frame.startRow == startRow && b.frame.endRow == endRow
    ensures b.frame.date == t.date && b.frame.time == t.time
  {
    var current := Refresh(c, t.now, t.fetched);
    Built(current, Render(phase, cfg.height, startRow, endRow, current.data, loc, t.date, t.time))
  }

  /** The `j`-th render of an operation that started with cache `c0`. */
  function RenderAt(cfg: Config, loc: Location, c0: Cache, phase: real,
                    startRow: int, endRow: int, ticks: seq<Tick>, j: nat): (r: Render)
    requires j < |ticks|
    ensures r.phase == phase && r.location == loc && r.startRow == startRow && r.endRow == endRow
    ensures r.height == cfg.height && r.data == CacheAfter(c0, ticks[..j + 1]).data
  {
    CacheAfterStep(c0, ticks, j);
    BuildPattern(cfg, loc, CacheAfter(c0, ticks[..j]), phase, startRow, endRow, ticks[j]).frame
  }

  /** The segments recorded for the ranges whose message was sent, in order. */
  function Created(ranges: seq<RowRange>, sends: seq<SendResult>): (segs: seq<Segment>)
    requires |ranges| == |sends|
    ensures |segs| <= |ranges|
  {
    if |ranges| == 0 then []
    else
      var n := |ranges| - 1;
      var earlier := Created(ranges[..n], sends[..n]);
      match sends[n]
      case Sent(h) => earlier + [Segment(h, ranges[n].start, ranges[n].end)]
      case SendFailed => earlier
  }

  /** The segments whose edit did not report the message gone, in order. */
  function Survivors(segs: seq<Segment>, edits: seq<EditResult>): (kept: seq<Segment>)
    requires |segs| == |edits|
    ensures |kept| <= |segs|
  {
    if |segs| == 0 then []
    else
      var n := |segs| - 1;
      Survivors(segs[..n], edits[..n]) + (if Gone(edits[n]) then [] else [segs[n]])
  }

  /** The rows a segment shows. */
  function RangeOf(s: Segment): RowRange {
    RowRange(s.startRow, s.endRow)
  }

  function RangesOf(segs: seq<Segment>): (rs: seq<RowRange>)
    ensures |rs| == |segs|
    ensures forall i :: 0 <= i < |segs| ==> rs[i] == RangeOf(segs[i])
  {
    seq(|segs|, i requires 0 <= i < |segs| => RangeOf(segs[i]))
  }

  /** Non-empty segments in strictly ascending, non-overlapping row order. */
  ghost predicate AscendingSegments(segs: seq<Segment>) {
    Ascending(RangesOf(segs))
  }

  /**
   A render whose freshness check fetches and fails draws from no
   observation and leaves none behind: its map is blank.
   */
  lemma FailedFetchBlanksFrame(rt: Runtime, cfg: Config, loc: Location, c: Cache, phase: real,
                               startRow: int, endRow: int, t: Tick)
    requires Stale(c, t.now) && t.fetched.None?
    ensures var b := BuildPattern(cfg, loc, c, phase, startRow, endRow, t);
            && b.cache.data.None? && b.frame.data.None?
            && forall y :: 0 <= y < cfg.height ==>
                 MapRows(rt, phase, cfg.height, ReadingOf(b.frame.data))[y] == seq(Columns, _ => Symbols[0])
  {
    NoObservationBlankMap(rt, phase, cfg.height, None);
  }

  /** Renders no later than the TTL after a successful fetch keep the cache as it is. */
  lemma {:induction false} ReusedWithinTtl(c: Cache, ticks: seq<Tick>)
    requires c.data.Some?
    requires forall j :: 0 <= j < |ticks| ==> ticks[j].now - c.fetchedAt <= TtlMs
    ensures CacheAfter(c, ticks) == c
  {
    if |ticks| > 0 {
      ReusedWithinTtl(c, ticks[..|ticks| - 1]);
    }
  }

  // ---------------------------------------------------------------------
  // Lemmas about the reference definitions
  // ---------------------------------------------------------------------

  lemma CacheAfterStep(c: Cache, ticks: seq<Tick>, k: nat)
    requires k < |ticks|
    ensures CacheAfter(c, ticks[..k + 1]) == Refresh(CacheAfter(c, ticks[..k]), ticks[k].now, ticks[k].fetched)
  {
    assert ticks[..k + 1][..k] == ticks[..k];
  }

  lemma CreatedStep(ranges: seq<RowRange>, sends: seq<SendResult>, k: nat)
    requires |ranges| == |sends| && k < |ranges|
    ensures Created(ranges[..k + 1], sends[..k + 1]) ==
            Created(ranges[..k], sends[..k]) +
            (if sends[k].Sent? then [Segment(sends[k].handle, ranges[k].start, ranges[k].end)] else [])
  {
    assert ranges[..k + 1][..k] == ranges[..k];
    assert sends[..k + 1][..k] == sends[..k];
  }

  lemma SurvivorsStep(segs: seq<Segment>, edits: seq<EditResult>, k: nat)
    requires |segs| == |edits| && k < |segs|
    ensures Survivors(segs[..k + 1], edits[..k + 1]) ==
            Survivors(segs[..k], edits[..k]) + (if Gone(edits[k]) then [] else [segs[k]])
  {
    assert segs[..k + 1][..k] == segs[..k];
    assert edits[..k + 1][..k] == edits[..k];
  }

  /**
   One visit of the splicing loop, in terms of the segments already
   visited (`k` of them, `i` of which survived) and those still to visit.
   */
  lemma SpliceStep(segs: seq<Segment>, edits: seq<EditResult>, messages: seq<Segment>, i: int, k: nat)
    requires |segs| == |edits| && k < |segs|
    requires i == |Survivors(segs[..k], edits[..k])|
    requires |messages| == i + (|segs| - k)
    requires messages[..i] == Survivors(segs[..k], edits[..k])
    requires messages[i..] == segs[k..]
    ensures 0 <= i < |messages| && messages[i] == segs[k]
    ensures Gone(edits[k]) ==>
              var m := messages[..i] + messages[i + 1..];
              && i == |Survivors(segs[..k + 1], edits[..k + 1])|
              && |m| == i + (|segs| - (k + 1))
              && m[..i] == Survivors(segs[..k + 1], edits[..k + 1])
              && m[i..] == segs[k + 1..]
    ensures !Gone(edits[k]) ==>
              && i + 1 == |Survivors(segs[..k + 1], edits[..k + 1])|
              && messages[..i + 1] == Survivors(segs[..k + 1], edits[..k + 1])
              && messages[i + 1..] == segs[k + 1..]
  {
    SurvivorsStep(segs, edits, k);
    assert messages[i] == messages[i..][0] == segs[k..][0];
    assert messages[i + 1..] == messages[i..][1..] == segs[k..][1..] == segs[k + 1..];
    if !Gone(edits[k]) {
      assert messages[..i + 1] == messages[..i] + [messages[i]];
    } else {
      var m := messages[..i] + messages[i + 1..];
      assert m[..i] == messages[..i];
      assert m[i..] == messages[i + 1..];
    }
  }

  /**
   The created segments are exactly the ranges whose send succeeded, with
   the handle the client returned: every created segment comes from some
   range `i` with a successful send, and every successful send yields a
   segment.
   */
  lemma {:induction false} CreatedMembers(ranges: seq<RowRange>, sends: seq<SendResult>)
    requires |ranges| == |sends|
    ensures forall s :: s in Created(ranges, sends) ==>
              exists i :: 0 <= i < |ranges| && sends[i] == Sent(s.handle) && RangeOf(s) == ranges[i]
    ensures forall i :: 0 <= i < |ranges| && sends[i].Sent? ==>
              Segment(sends[i].handle, ranges[i].start, ranges[i].end) in Created(ranges, sends)
  {
    if |ranges| > 0 {
      var n := |ranges| - 1;
      CreatedMembers(ranges[..n], sends[..n]);
    }
  }

  /**
   Creation keeps the order of the ranges: when the ranges are ascending, so
   are the created segments, even when some sends failed.
   */
  lemma {:induction false} CreatedAscending(ranges: seq<RowRange>, sends: seq<SendResult>)
    requires |ranges| == |sends|
    requires Ascending(ranges)
    ensures AscendingSegments(Created(ranges, sends))
    ensures forall i :: 0 <= i < |Created(ranges, sends)| ==> RangeOf(Created(ranges, sends)[i]) in ranges
  {
    if |ranges| > 0 {
      var n := |ranges| - 1;
      var earlier := Created(ranges[..n], sends[..n]);
      var all := Created(ranges, sends);
      var tail := if sends[n].Sent? then [Segment(sends[n].handle, ranges[n].start, ranges[n].end)] else [];
      assert all == earlier + tail;
      assert Ascending(ranges[..n]) by {
        assert forall i :: 0 <= i < n ==> ranges[..n][i] == ranges[i];
      }
      CreatedAscending(ranges[..n], sends[..n]);
      var rs := RangesOf(all);
      var er := RangesOf(earlier);
      forall i | 0 <= i < |earlier|
        ensures earlier[i].endRow <= ranges[n].start
      {
        var r := RangeOf(earlier[i]);
        assert r in ranges[..n];
        var j :| 0 <= j < n && ranges[..n][j] == r;
        assert ranges[j].end <= ranges[n].start;
      }
      forall i | 0 <= i < |all|
        ensures rs[i].start < rs[i].end && RangeOf(all[i]) in ranges
      {
        if i < |earlier| {
          assert all[i] == earlier[i];
          assert er[i].start < er[i].end;
          assert RangeOf(earlier[i]) in ranges[..n];
        } else {
          assert RangeOf(all[i]) == ranges[n];
        }
      }
      forall i, j | 0 <= i < j < |all|
        ensures rs[i].end <= rs[j].start
      {
        assert all[i] == earlier[i];
        if j < |earlier| {
          assert all[j] == earlier[j];
          assert er[i].end <= er[j].start;
        } else {
          assert rs[j] == ranges[n];
        }
      }
    }
  }

  /** Survivors appear in the order they had; pruning never reorders or invents segments. */
  lemma {:induction false} SurvivorsAscending(segs: seq<Segment>, edits: seq<EditResult>)
    requires |segs| == |edits|
    requires AscendingSegments(segs)
    ensures AscendingSegments(Survivors(segs, edits))
    ensures forall s :: s in Survivors(segs, edits) ==> s in segs
  {
    if |segs| > 0 {
      var n := |segs| - 1;
      var earlier := Survivors(segs[..n], edits[..n]);
      assert RangesOf(segs[..n]) == RangesOf(segs)[..n];
      SurvivorsAscending(segs[..n], edits[..n]);
      var all := Survivors(segs, edits);
      var rs := RangesOf(all);
      forall i | 0 <= i < |earlier|
        ensures earlier[i].endRow <= segs[n].startRow
      {
        assert earlier[i] in segs[..n];
        var j :| 0 <= j < n && segs[j] == earlier[i];
        assert RangesOf(segs)[j].end <= RangesOf(segs)[n].start;
      }
      forall i, j | 0 <= i < j < |all|
        ensures rs[i].end <= rs[j].start
      {
        if j < |earlier| {
          assert all[i] == earlier[i] && all[j] == earlier[j];
          assert RangesOf(earlier)[i].end <= RangesOf(earlier)[j].start;
        }
      }
      forall i | 0 <= i < |all|
        ensures rs[i].start < rs[i].end
      {
        if i < |earlier| {
          assert RangesOf(earlier)[i].start < RangesOf(earlier)[i].end;
        } else {
          assert RangesOf(segs)[n].start < RangesOf(segs)[n].end;
        }
      }
    }
  }

  /** Pruning only removes: every survivor was in the list before. */
  lemma {:induction false} SurvivorsDrawnFrom(segs: seq<Segment>, edits: seq<EditResult>)
    requires |segs| == |edits|
    ensures forall s :: s in Survivors(segs, edits) ==> s in segs
  {
    if |segs| > 0 {
      var n := |segs| - 1;
      SurvivorsDrawnFrom(segs[..n], edits[..n]);
      assert forall s :: s in segs[..n] ==> s in segs;
    }
  }

  /** When no edit reports a missing message, every segment stays. */
  lemma {:induction false} SurvivorsKeepAll(segs: seq<Segment>, edits: seq<EditResult>)
    requires |segs| == |edits|
    requires forall i :: 0 <= i < |edits| ==> !Gone(edits[i])
    ensures Survivors(segs, edits) == segs
  {
    if |segs| > 0 {
      var n := |segs| - 1;
      SurvivorsKeepAll(segs[..n], edits[..n]);
      assert segs[..n] + [segs[n]] == segs;
    }
  }

  /**
   When exactly the edit of segment `k` reports the message gone, exactly that
   segment is removed and the others keep their order.
   */
  lemma {:induction false} SurvivorsPruneOne(segs: seq<Segment>, edits: seq<EditResult>, k: nat)
    requires |segs| == |edits| && k < |segs|
    requires Gone(edits[k])
    requires forall i :: 0 <= i < |edits| && i != k ==> !Gone(edits[i])
    ensures Survivors(segs, edits) == segs[..k] + segs[k + 1..]
  {
    var n := |segs| - 1;
    if n == k {
      SurvivorsKeepAll(segs[..n], edits[..n]);
    } else {
      SurvivorsPruneOne(segs[..n], edits[..n], k);
      assert segs[..n][..k] == segs[..k];
      assert segs[..n][k + 1..] + [segs[n]] == segs[k + 1..];
    }
  }

  /**
   A failed edit other than "unknown message" removes nothing: the segment
   whose edit failed with another code is still there afterwards, and a
   segment reported gone is not, provided segments are distinct.
   */
  lemma {:induction false} SurvivorsMembership(segs: seq<Segment>, edits: seq<EditResult>, k: nat)
    requires |segs| == |edits| && k < |segs|
    requires AscendingSegments(segs)
    ensures segs[k] in Survivors(segs, edits) <==> !Gone(edits[k])
  {
    var n := |segs| - 1;
    assert RangesOf(segs[..n]) == RangesOf(segs)[..n];
    SurvivorsAscending(segs[..n], edits[..n]);
    if k == n {
    } else {
      SurvivorsMembership(segs[..n], edits[..n], k);
      assert RangesOf(segs)[k].end <= RangesOf(segs)[n].start;
      assert RangesOf(segs)[k].start < RangesOf(segs)[k].end;
      assert segs[k] != segs[n];
    }
  }

  // ---------------------------------------------------------------------
  // Operations
  // ---------------------------------------------------------------------

  /**
   Sends one message per row range of the map, top to bottom, and records a
   segment for each message that was sent. A failed send skips its range.
   The new segments are appended to whatever the list held.
   */
  method CreateDisplay(cfg: Config, d: RadarDisplay, ticks: seq<Tick>, sends: seq<SendResult>)
    returns (d': RadarDisplay, calls: seq<SinkCall>)
    requires ValidConfig(cfg)
    requires |ticks| == |sends| == SegmentCount(cfg.height, cfg.rowsPerMessage)
    ensures d' == d.(segments := d.segments + Created(Ranges(cfg.height, cfg.rowsPerMessage), sends),
                     cache := CacheAfter(d.cache, ticks))
    ensures |calls| == |ticks|
    ensures forall i :: 0 <= i < |calls| ==>
              calls[i] == Send(RenderAt(cfg, d.location, d.cache, d.phase,
                                      Ranges(cfg.height, cfg.rowsPerMessage)[i].start,
                                      Ranges(cfg.height, cfg.rowsPerMessage)[i].end, ticks, i))
  {
    var count := SegmentCount(cfg.height, cfg.rowsPerMessage);
    ghost var ranges := Ranges(cfg.height, cfg.rowsPerMessage);
    var messages := d.segments;
    var cache := d.cache;
    calls := [];
    var i := 0;
    while i < count
      invariant 0 <= i <= count
      invariant messages == d.segments + Created(ranges[..i], sends[..i])
      invariant cache == CacheAfter(d.cache, ticks[..i])
      invariant |calls| == i
      invariant forall j :: 0 <= j < i ==>
                  calls[j] == Send(RenderAt(cfg, d.location, d.cache, d.phase, ranges[j].start, ranges[j].end, ticks, j))
    {
      var startRow := i * cfg.rowsPerMessage;
      var endRow := Min((i + 1) * cfg.rowsPerMessage, cfg.height);
      CacheAfterStep(d.cache, ticks, i);
      var built := BuildPattern(cfg, d.location, cache, d.phase, startRow, endRow, ticks[i]);
      cache := built.cache;
      calls := calls + [Send(built.frame)];
      CreatedStep(ranges, sends, i);
      if sends[i].Sent? {
        messages := messages + [Segment(sends[i].handle, startRow, endRow)];
      }
      i := i + 1;
    }
    assert ranges[..count] == ranges && sends[..count] == sends && ticks[..count] == ticks;
    d' := d.(segments := messages, cache := cache);
  }

  /** Starting an animation that is already running does nothing. */
  function StartAnimation(d: RadarDisplay): (r: (RadarDisplay, bool))
    ensures r.0.running
    ensures r.1 <==> !d.running
    ensures r.0.(running := d.running) == d
  {
    if d.running then (d, false) else (d.(running := true), true)
  }

  /** Clears the running flag; the loop notices it before its next cycle. Nothing else changes. */
  function StopAnimation(d: RadarDisplay): (r: RadarDisplay)
    ensures !r.running
    ensures r.(running := d.running) == d
  {
    d.(running := false)
  }

  /**
   The segment loop of one animation cycle: render and edit each segment in
   order; a segment whose edit reports "unknown message" is spliced out and
   the index stepped back, so that the segment moved into its place is
   visited next.
   */
  method EditPass(cfg: Config, loc: Location, c0: Cache, phase: real,
                  segs: seq<Segment>, ticks: seq<Tick>, edits: seq<EditResult>)
    returns (cache: Cache, messages: seq<Segment>, calls: seq<SinkCall>)
    requires |ticks| == |edits| == |segs|
    ensures cache == CacheAfter(c0, ticks)
    ensures messages == Survivors(segs, edits)
    ensures |calls| == |segs|
    ensures forall j :: 0 <= j < |segs| ==>
              calls[j] == Edit(segs[j].handle, RenderAt(cfg, loc, c0, phase, segs[j].startRow, segs[j].endRow, ticks, j))
  {
    messages := segs;
    cache := c0;
    calls := [];
    var i: int := 0;
    var k := 0;  // renders and edits issued so far
    while i < |messages|
      invariant 0 <= k <= |segs|
      invariant i == |Survivors(segs[..k], edits[..k])|
      invariant |messages| == i + (|segs| - k)
      invariant messages[..i] == Survivors(segs[..k], edits[..k])
      invariant messages[i..] == segs[k..]
      invariant cache == CacheAfter(c0, ticks[..k])
      invariant |calls| == k
      invariant forall j :: 0 <= j < k ==>
                  calls[j] == Edit(segs[j].handle, RenderAt(cfg, loc, c0, phase, segs[j].startRow, segs[j].endRow, ticks, j))
      decreases |messages| - i
    {
      SpliceStep(segs, edits, messages, i, k);
      var seg := messages[i];
      CacheAfterStep(c0, ticks, k);
      var built := BuildPattern(cfg, loc, cache, phase, seg.startRow, seg.endRow, ticks[k]);
      cache := built.cache;
      calls := calls + [Edit(seg.handle, built.frame)];
      if Gone(edits[k]) {
        messages := messages[..i] + messages[i + 1..];
        i := i - 1;
      }
      i := i + 1;
      k := k + 1;
    }
    assert segs[..k] == segs && edits[..k] == edits && ticks[..k] == ticks;
    assert messages == messages[..i];
  }

  /**
   One pass of the animation loop. When the running flag is off the loop
   has ended and nothing happens. Otherwise the phase advances by 0.1 (the
   event phase by 0.05), every segment is re-rendered at the new phase and
   edited in order, and segments reported gone are dropped.
   */
  method AnimationCycle(cfg: Config, d: RadarDisplay, ticks: seq<Tick>, edits: seq<EditResult>)
    returns (d': RadarDisplay, calls: seq<SinkCall>)
    requires |ticks| == |edits| == |d.segments|
    ensures !d.running ==> d' == d && calls == []
    ensures d.running ==> d' == d.(phase := d.phase + 0.1, eventPhase := d.eventPhase + 0.05,
                                   segments := Survivors(d.segments, edits), cache := CacheAfter(d.cache, ticks))
    ensures d.running ==> |calls| == |d.segments|
    ensures AscendingSegments(d.segments) ==> AscendingSegments(d'.segments)
    ensures forall s :: s in d'.segments ==> s in d.segments
    ensures d.running ==> forall j :: 0 <= j < |d.segments| ==>
              calls[j] == Edit(d.segments[j].handle,
                               RenderAt(cfg, d.location, d.cache, d.phase + 0.1,
                                      d.segments[j].startRow, d.segments[j].endRow, ticks, j))
  {
    if !d.running {
      return d, [];
    }
    var phase := d.phase + 0.1;
    var eventPhase := d.eventPhase + 0.05;
    var cache, messages, c := EditPass(cfg, d.location, d.cache, phase, d.segments, ticks, edits);
    d' := d.(phase := phase, eventPhase := eventPhase, segments := messages, cache := cache);
    calls := c;
    SurvivorsDrawnFrom(d.segments, edits);
    if AscendingSegments(d.segments) {
      SurvivorsAscending(d.segments, edits);
    }
  }

  /**
   Asks the client to delete every segment's message, in order, and empties
   the list whatever the deletes answered. The running flag is left alone.
   */
  method RemoveDisplay(d: RadarDisplay) returns (d': RadarDisplay, calls: seq<SinkCall>)
    ensures d' == d.(segments := [])
    ensures |calls| == |d.segments|
    ensures forall i :: 0 <= i < |calls| ==> calls[i] == Delete(d.segments[i].handle)
  {
    calls := [];
    var i := 0;
    while i < |d.segments|
      invariant 0 <= i <= |d.segments|
      invariant |calls| == i
      invariant forall j :: 0 <= j < i ==> calls[j] == Delete(d.segments[j].handle)
    {
      calls := calls + [Delete(d.segments[i].handle)];
      i := i + 1;
    }
    d' := d.(segments := []);
  }

  /**
   Switches to a new location: phase and event phase go back to 0, the
   forecast for the new place is fetched once (`first`), and every segment is
   re-rendered at phase 0 and edited, keeping its rows and its message.
   Edit failures are ignored here; nothing is pruned.
   */
  method ChangeLocation(cfg: Config, d: RadarDisplay, loc: Location, first: Tick, ticks: seq<Tick>)
    returns (d': RadarDisplay, calls: seq<SinkCall>)
    requires |ticks| == |d.segments|
    ensures d' == d.(location := loc, phase := 0.0, eventPhase := 0.0,
                     cache := CacheAfter(Cache(first.fetched, first.now), ticks))
    ensures |calls| == |d.segments|
    ensures forall j :: 0 <= j < |d.segments| ==>
              calls[j] == Edit(d.segments[j].handle,
                               RenderAt(cfg, loc, Cache(first.fetched, first.now), 0.0,
                                      d.segments[j].startRow, d.segments[j].endRow, ticks, j))
  {
    var fetchedCache := Cache(first.fetched, first.now);
    var cache := fetchedCache;
    calls := [];
    var i := 0;
    while i < |d.segments|
      invariant 0 <= i <= |d.segments|
      invariant cache == CacheAfter(fetchedCache, ticks[..i])
      invariant |calls| == i
      invariant forall j :: 0 <= j < i ==>
                  calls[j] == Edit(d.segments[j].handle,
                                   RenderAt(cfg, loc, fetchedCache, 0.0, d.segments[j].startRow, d.segments[j].endRow, ticks, j))
    {
      var seg := d.segments[i];
      CacheAfterStep(fetchedCache, ticks, i);
      var built := BuildPattern(cfg, loc, cache, 0.0, seg.startRow, seg.endRow, ticks[i]);
      cache := built.cache;
      calls := calls + [Edit(seg.handle, built.frame)];
      i := i + 1;
    }
    assert ticks[..i] == ticks;
    d' := d.(location := loc, phase := 0.0, eventPhase := 0.0, cache := cache);
  }

  /**
   The location change fetches once up front. When that fetch succeeds and
   the re-renders come within the TTL, every re-render draws from it; when
   it fails, the first re-render fetches again.
   */
  lemma ChangeLocationFetches(first: Tick, ticks: seq<Tick>)
    ensures first.fetched.Some? && (forall j :: 0 <= j < |ticks| ==> ticks[j].now - first.now <= TtlMs) ==>
              forall j :: 0 <= j <= |ticks| ==>
                CacheAfter(Cache(first.fetched, first.now), ticks[..j]) == Cache(first.fetched, first.now)
    ensures first.fetched.None? && |ticks| > 0 ==>
              CacheAfter(Cache(first.fetched, first.now), ticks[..1]) == Cache(ticks[0].fetched, ticks[0].now)
  {
    var c := Cache(first.fetched, first.now);
    if first.fetched.Some? && (forall j :: 0 <= j < |ticks| ==> ticks[j].now - first.now <= TtlMs) {
      forall j | 0 <= j <= |ticks|
        ensures CacheAfter(c, ticks[..j]) == c
      {
        ReusedWithinTtl(c, ticks[..j]);
      }
    }
    if first.fetched.None? && |ticks| > 0 {
      CacheAfterStep(c, ticks, 0);
      assert ticks[..0] == [];
    }
  }

  // ---------------------------------------------------------------------
  // Commands
  // ---------------------------------------------------------------------

  /**
   The radar command: remove the old display, create a new one and start
   the animation. The new list holds exactly the ranges whose message was
   sent, in ascending order, each one a range of the ideal partition; the
   location and both phases are kept, and only the create renders touch
   the cache.
   */
  method ShowRadar(cfg: Config, d: RadarDisplay, ticks: seq<Tick>, sends: seq<SendResult>)
    returns (d': RadarDisplay, calls: seq<SinkCall>)
    requires ValidConfig(cfg)
    requires |ticks| == |sends| == SegmentCount(cfg.height, cfg.rowsPerMessage)
    ensures d'.running
    ensures d'.segments == Created(Ranges(cfg.height, cfg.rowsPerMessage), sends)
    ensures AscendingSegments(d'.segments)
    ensures forall i :: 0 <= i < |d'.segments| ==> RangeOf(d'.segments[i]) in Ranges(cfg.height, cfg.rowsPerMessage)
    ensures d' == d.(running := true,
                     segments := Created(Ranges(cfg.height, cfg.rowsPerMessage), sends),
                     cache := CacheAfter(d.cache, ticks))
    ensures |calls| == |d.segments| + |ticks|
    ensures forall i :: 0 <= i < |d.segments| ==> calls[i] == Delete(d.segments[i].handle)
    ensures forall i :: 0 <= i < |ticks| ==>
              calls[|d.segments| + i] == Send(RenderAt(cfg, d.location, d.cache, d.phase,
                                                      Ranges(cfg.height, cfg.rowsPerMessage)[i].start,
                                                      Ranges(cfg.height, cfg.rowsPerMessage)[i].end, ticks, i))
  {
    var removed, deletes := RemoveDisplay(d);
    var created, sent := CreateDisplay(cfg, removed, ticks, sends);
    var started := StartAnimation(created);
    d' := started.0;
    calls := deletes + sent;
    ghost var ranges := Ranges(cfg.height, cfg.rowsPerMessage);
    assert d'.segments == Created(ranges, sends);
    RangesAscending(cfg.height, cfg.rowsPerMessage);
    CreatedAscending(ranges, sends);
  }

  /**
   The stop command: clear the running flag, then delete every message.
   Afterwards the list is empty and the next loop check ends the animation.
   */
  method StopRadar(d: RadarDisplay) returns (d': RadarDisplay, calls: seq<SinkCall>)
    ensures !d'.running && d'.segments == []
    ensures d' == d.(running := false, segments := [])
    ensures calls == seq(|d.segments|, i requires 0 <= i < |d.segments| => Delete(d.segments[i].handle))
  {
    d', calls := RemoveDisplay(StopAnimation(d));
  }
}

=== FILE: field.dfy ===
/**
 The procedural precipitation field: every cell of the map gets an intensity
 category 0..5 from the current reading, the animation phase and its
 position, and each category is drawn with one symbol of an eight-entry
 table.

 `Math.sin`, `Math.cos` and `Math.sqrt` are not modelled: they are fields of
 a `Runtime` value, so every property below holds whatever those functions
 compute, except where a lemma asks for `TrigBounded`.
 */
module Field {
  import opened Observation

  /** The JavaScript runtime's floating-point functions the renderer calls. */
  datatype Runtime = Runtime(sin: real -> real, cos: real -> real, sqrt: real -> real, show: real -> string)

  /** sin and cos stay within [-1, 1]. */
  ghost predicate TrigBounded(rt: Runtime) {
    forall v: real :: -1.0 <= rt.sin(v) <= 1.0 && -1.0 <= rt.cos(v) <= 1.0
  }

  /** The column loop is fixed at 22 columns whatever width is configured. */
  const Columns: nat := 22
  /** The horizontal centre is fixed at column 11. */
  const CenterX: int := 11

  /** The eight display symbols, one per category. */
  const Symbols: seq<char> := [
    '\U{2B1C}',   // clear
    '\U{1F7E6}',  // light
    '\U{1F7E9}',  // moderate
    '\U{1F7E8}',  // heavy
    '\U{1F7E7}',  // very heavy
    '\U{1F7E5}',  // severe
    '\U{1F7EA}',  // hail (never produced)
    '\U{2B1B}'    // tornado (never produced)
  ]

  /** The highest category the threshold ladder produces. */
  const TopCategory: nat := 5

  function Abs(v: real): real {
    if v < 0.0 then -v else v
  }

  /** The lower bound of category `k` (1..5) on the intensity scale. */
  function Cut(k: nat): real
    requires 1 <= k <= TopCategory
  {
    [0.1, 0.5, 1.0, 2.5, 5.0][k - 1]
  }

  /**
   The threshold ladder: the category reaches `k` exactly when the intensity
   reaches the `k`-th cut point.
   */
  function Ladder(intensity: real): (c: nat)
    ensures c <= TopCategory
    ensures forall k :: 1 <= k <= TopCategory ==> (c >= k <==> intensity >= Cut(k))
  {
    if intensity < 0.1 then 0
    else if intensity < 0.5 then 1
    else if intensity < 1.0 then 2
    else if intensity < 2.5 then 3
    else if intensity < 5.0 then 4
    else 5
  }

  /** A larger intensity never gets a smaller category. */
  lemma LadderMonotone(a: real, b: real)
    requires a <= b
    ensures Ladder(a) <= Ladder(b)
  {
  }

  /** The drifting front: sin((x + 2·phase)·0.3) · cos((y + phase)·0.2). */
  function Front(rt: Runtime, phase: real, x: int, y: int): real {
    rt.sin((x as real + phase * 2.0) * 0.3) * rt.cos((y as real + phase) * 0.2)
  }

  /** Euclidean distance of (x, y) from (11, height / 2). */
  function Distance(rt: Runtime, height: nat, x: int, y: int): real {
    var dx := (x - CenterX) as real;
    var dy := y as real - height as real / 2.0;
    rt.sqrt(dx * dx + dy * dy)
  }

  /**
   The moving storm band: cells within 4 of the ring at radius
   8 + 3·sin(0.5·phase) gain up to 3.2. Whatever sqrt and sin return, the
   contribution lies in [0, 3.2].
   */
  function StormTerm(rt: Runtime, phase: real, height: nat, x: int, y: int): (t: real)
    ensures 0.0 <= t <= 3.2
  {
    var ringDistance := Abs(Distance(rt, height, x, y) - 8.0 - rt.sin(phase * 0.5) * 3.0);
    if ringDistance < 4.0 then (4.0 - ringDistance) * 0.8 else 0.0
  }

  /** Precipitation, plus half the front, plus the storm band when precipitation exceeds 1.0. */
  function Intensity(rt: Runtime, phase: real, height: nat, x: int, y: int, precip: real): (v: real)
    ensures precip <= 1.0 ==> v == precip + Front(rt, phase, x, y) * 0.5
    ensures precip + Front(rt, phase, x, y) * 0.5 <= v <= precip + Front(rt, phase, x, y) * 0.5 + 3.2
  {
    var base := precip + Front(rt, phase, x, y) * 0.5;
    if precip > 1.0 then base + StormTerm(rt, phase, height, x, y) else base
  }

  /**
   The category of cell (x, y). Clear sky (no precipitation, code at most 3)
   short-circuits to 0; so does negative precipitation with a code at most 3,
   which falls through both branches of the source.
   */
  function CellCategory(rt: Runtime, phase: real, height: nat, x: int, y: int, rd: Reading): (c: nat)
    ensures c <= TopCategory
    ensures c > 0 ==> rd.precip > 0.0 || rd.code > 3
  {
    if rd.precip == 0.0 && rd.code <= 3 then 0
    else if rd.precip > 0.0 || rd.code > 3 then Ladder(Intensity(rt, phase, height, x, y, rd.precip))
    else 0
  }

  /** The categories of the whole map: `height` rows of 22 cells. */
  function Grid(rt: Runtime, phase: real, height: nat, rd: Reading): (g: seq<seq<nat>>)
    ensures |g| == height
    ensures forall y :: 0 <= y < height ==> |g[y]| == Columns
    ensures forall y, x :: 0 <= y < height && 0 <= x < Columns ==>
              g[y][x] == CellCategory(rt, phase, height, x, y, rd)
  {
    seq(height, y => seq(Columns, x => CellCategory(rt, phase, height, x, y, rd)))
  }

  /** Every category of a row is an index into the symbol table. */
  predicate ValidRow(cats: seq<nat>) {
    forall i :: 0 <= i < |cats| ==> cats[i] < |Symbols|
  }

  /** A row of categories drawn as text, one symbol per cell. */
  function RowText(cats: seq<nat>): (s: string)
    requires ValidRow(cats)
    ensures |s| == |cats|
    ensures forall i :: 0 <= i < |s| ==> s[i] in Symbols
  {
    seq(|cats|, i requires 0 <= i < |cats| => Symbols[cats[i]])
  }

  /** The category a symbol stands for (0 for anything that is not a symbol). */
  function SymbolCategory(ch: char): (c: nat)
    ensures c < |Symbols|
    ensures ch in Symbols ==> Symbols[c] == ch
  {
    if ch == Symbols[0] then 0
    else if ch == Symbols[1] then 1
    else if ch == Symbols[2] then 2
    else if ch == Symbols[3] then 3
    else if ch == Symbols[4] then 4
    else if ch == Symbols[5] then 5
    else if ch == Symbols[6] then 6
    else if ch == Symbols[7] then 7
    else 0
  }

  /** Reads the categories back from a drawn row. */
  function DecodeRow(s: string): (cats: seq<nat>)
    ensures |cats| == |s|
    ensures ValidRow(cats)
  {
    seq(|s|, i requires 0 <= i < |s| => SymbolCategory(s[i]))
  }

  /** Drawing a row loses nothing: its categories can be read back from the text. */
  lemma DecodeRowText(cats: seq<nat>)
    requires ValidRow(cats)
    ensures DecodeRow(RowText(cats)) == cats
  {
    var s := RowText(cats);
    forall i | 0 <= i < |cats|
      ensures DecodeRow(s)[i] == cats[i]
    {
      SymbolsDistinct(cats[i]);
    }
  }

  /** No two table entries share a symbol, so a symbol names its category. */
  lemma SymbolsDistinct(c: nat)
    requires c < |Symbols|
    ensures SymbolCategory(Symbols[c]) == c
  {
  }

  /** The text of map row `y`. */
  function MapRow(rt: Runtime, phase: real, height: nat, y: int, rd: Reading): (s: string)
    ensures |s| == Columns
  {
    RowText(seq(Columns, x => CellCategory(rt, phase, height, x, y, rd)))
  }

  /** Map row `y` is the drawing of row `y` of the grid: its symbols read back as that row's categories. */
  lemma MapRowIsGridRow(rt: Runtime, phase: real, height: nat, y: int, rd: Reading)
    requires 0 <= y < height
    ensures DecodeRow(MapRow(rt, phase, height, y, rd)) == Grid(rt, phase, height, rd)[y]
  {
    DecodeRowText(seq(Columns, x => CellCategory(rt, phase, height, x, y, rd)));
  }

  // ---------------------------------------------------------------------
  // Properties of the field
  // ---------------------------------------------------------------------

  /**
   Clear sky: with no precipitation and a code at most 3, every cell of the
   map is category 0 and every row is 22 clear symbols, for every phase.
   */
  lemma ClearSkyIsBlank(rt: Runtime, phase: real, height: nat, rd: Reading)
    requires rd.precip == 0.0 && rd.code <= 3
    ensures forall y, x :: 0 <= y < height && 0 <= x < Columns ==> Grid(rt, phase, height, rd)[y][x] == 0
    ensures forall y :: 0 <= y < height ==> MapRow(rt, phase, height, y, rd) == seq(Columns, _ => Symbols[0])
  {
  }

  /**
   Raising the precipitation at a fixed cell, phase and weather code never
   lowers the category: the storm band only adds, and it switches on only
   above 1.0.
   */
  lemma CategoryMonotoneInPrecip(rt: Runtime, phase: real, height: nat, x: int, y: int, code: int, p1: real, p2: real)
    requires p1 <= p2
    ensures CellCategory(rt, phase, height, x, y, Reading(p1, code)) <= CellCategory(rt, phase, height, x, y, Reading(p2, code))
  {
    var c1 := CellCategory(rt, phase, height, x, y, Reading(p1, code));
    var c2 := CellCategory(rt, phase, height, x, y, Reading(p2, code));
    if c1 > 0 {
      assert p1 > 0.0 || code > 3;
      var i1 := Intensity(rt, phase, height, x, y, p1);
      var i2 := Intensity(rt, phase, height, x, y, p2);
      assert i1 <= i2 by {
        var storm := StormTerm(rt, phase, height, x, y);
        assert storm >= 0.0;
      }
      LadderMonotone(i1, i2);
      assert p2 > 0.0 || code > 3;
    }
  }

  /** The symbols for hail and tornado are never drawn: every drawn cell is category 0..5. */
  lemma ReservedSymbolsUnused(rt: Runtime, phase: real, height: nat, y: int, rd: Reading)
    ensures Symbols[6] !in MapRow(rt, phase, height, y, rd)
    ensures Symbols[7] !in MapRow(rt, phase, height, y, rd)
  {
    var cats := seq(Columns, x => CellCategory(rt, phase, height, x, y, rd));
    var s := MapRow(rt, phase, height, y, rd);
    forall i | 0 <= i < |s|
      ensures s[i] != Symbols[6] && s[i] != Symbols[7]
    {
      assert s[i] == Symbols[cats[i]];
      assert cats[i] <= TopCategory;
    }
  }

  /** |a·b| <= 1 when |a| <= 1 and |b| <= 1. */
  lemma ProductInUnitRange(a: real, b: real)
    requires -1.0 <= a <= 1.0 && -1.0 <= b <= 1.0
    ensures -1.0 <= a * b <= 1.0
  {
    if a >= 0.0 {
      if b >= 0.0 {
        assert a * b <= 1.0 * b;
      } else {
        assert a * b >= a * -1.0;
      }
    } else {
      if b >= 0.0 {
        assert a * b >= -1.0 * b;
      } else {
        assert a * b <= -1.0 * b;
      }
    }
  }

  /** With bounded trigonometry the front moves the intensity by at most 0.5. */
  lemma FrontBounded(rt: Runtime, phase: real, x: int, y: int)
    requires TrigBounded(rt)
    ensures -1.0 <= Front(rt, phase, x, y) <= 1.0
  {
    var a := rt.sin((x as real + phase * 2.0) * 0.3);
    var b := rt.cos((y as real + phase) * 0.2);
    ProductInUnitRange(a, b);
  }

  /** Precipitation of 5.5 or more saturates every cell at category 5. */
  lemma HeavyRainSaturates(rt: Runtime, phase: real, height: nat, x: int, y: int, rd: Reading)
    requires TrigBounded(rt)
    requires rd.precip >= 5.5
    ensures CellCategory(rt, phase, height, x, y, rd) == TopCategory
  {
    FrontBounded(rt, phase, x, y);
    var storm := StormTerm(rt, phase, height, x, y);
    assert Intensity(rt, phase, height, x, y, rd.precip) >= 5.0;
  }

  /** Light precipitation below 0.5 never shows more than category 2 (no storm band). */
  lemma LightRainCapped(rt: Runtime, phase: real, height: nat, x: int, y: int, rd: Reading)
    requires TrigBounded(rt)
    requires rd.precip < 0.5
    ensures CellCategory(rt, phase, height, x, y, rd) <= 2
  {
    FrontBounded(rt, phase, x, y);
    assert Intensity(rt, phase, height, x, y, rd.precip) < 1.0;
  }
}

=== FILE: frame.dfy ===
/**
 One rendered frame of one segment: the map rows in the segment's window,
 with the header block in front when the window starts at row 0, joined
 into a single message text.

 The date and time strings come from the platform's locale formatting and
 are parameters; number formatting is the runtime's `show`.
 */
module Frame {
  import opened Observation
  import opened Field

  // ---------------------------------------------------------------------
  // Array.prototype.slice
  // ---------------------------------------------------------------------

  /** A slice bound as `slice` reads it: negative counts from the end, then clamped to [0, len]. */
  function SliceBound(len: nat, rel: int): (k: nat)
    ensures k <= len
    ensures 0 <= rel <= len ==> k == rel
  {
    if rel < 0 then (if len + rel < 0 then 0 else len + rel)
    else if rel > len then len
    else rel
  }

  /** `xs.slice(start, end)`: the window between the two bounds, empty when they cross. */
  function JsSlice<T>(xs: seq<T>, start: int, end: int): (r: seq<T>)
    ensures 0 <= start <= end <= |xs| ==> r == xs[start..end]
    ensures |r| <= |xs|
    ensures forall i :: 0 <= i < |r| ==> r[i] in xs
  {
    var a := SliceBound(|xs|, start);
    var b := SliceBound(|xs|, end);
    if a < b then xs[a..b] else []
  }

  // ---------------------------------------------------------------------
  // Header block
  // ---------------------------------------------------------------------

  /** `n` copies of `c`. */
  function Repeat(c: char, n: nat): (s: string)
    ensures |s| == n
    ensures forall i :: 0 <= i < n ==> s[i] == c
  {
    seq(n, _ => c)
  }

  /** A rule of 51 box-drawing characters. */
  const Rule: string := Repeat('\U{2550}', 51)
  const Separator: string := Rule
  const Divider: string := Rule
  const LegendTitle: string := "### \U{1F4CA} PRECIPITATION INTENSITY"
  const Legend1: string := "\U{2B1C} Clear  \U{1F7E6} Light  \U{1F7E9} Moderate  \U{1F7E8} Heavy"
  const Legend2: string := "\U{1F7E7} Very Heavy  \U{1F7E5} Severe  \U{1F7EA} Hail  \U{2B1B} Tornado"
  const Commands: string := "\U{1F4AC} Commands: `.location <city>` | `.random`"

  function Title(loc: Location): string {
    "# \U{1F326}\U{FE0F} WEATHER RADAR - " + loc.name
  }

  function DateTimeLine(date: string, time: string): string {
    "## " + date + " | " + time + " CST"
  }

  /** `Math.round`: halves go up. */
  function Round(v: real): int {
    (v + 0.5).Floor
  }

  /**
   `Math.round` of a JSON number as text: an absent value rounds to NaN,
   `null` converts to 0.
   */
  function RoundedText(rt: Runtime, v: Json<real>): string {
    match v
    case Undefined => "NaN"
    case Null => rt.show(0.0)
    case Value(t) => rt.show(Round(t) as real)
  }

  /** Temperature, precipitation and wind. */
  function WeatherInfo(rt: Runtime, cur: Current): (s: string)
    ensures |s| > 0
  {
    var temp := RoundedText(rt, cur.temperature);
    var precip := rt.show(OrZero(cur.precipitation));
    var wind := rt.show(Round(OrZero(cur.windSpeed)) as real);
    TemperatureLabel + temp + "\U{B0}C | \U{1F327}\U{FE0F} " + precip + "mm/h | \U{1F4A8} " + wind + "km/h"
  }

  /** The text that opens the summary, in front of the temperature. */
  const TemperatureLabel: string := "\U{1F321}\U{FE0F} "

  /**
   The summary opens with the temperature as `Math.round` gives it: "NaN"
   when the field is absent, 0 (as the runtime shows it) when it is `null`,
   and the rounded value otherwise.
   */
  lemma TemperatureShown(rt: Runtime, cur: Current)
    ensures var s := WeatherInfo(rt, cur);
            var k := |TemperatureLabel|;
            && s[..k] == TemperatureLabel
            && (cur.temperature.Undefined? ==> k + 3 <= |s| && s[k..k + 3] == "NaN")
            && (cur.temperature.Null? ==> k + |rt.show(0.0)| <= |s| && s[k..k + |rt.show(0.0)|] == rt.show(0.0))
            && (cur.temperature.Value? ==>
                  var t := rt.show(Round(cur.temperature.value) as real);
                  k + |t| <= |s| && s[k..k + |t|] == t)
  {
    var temp := RoundedText(rt, cur.temperature);
    var s := WeatherInfo(rt, cur);
    var k := |TemperatureLabel|;
    var rest := "\U{B0}C | \U{1F327}\U{FE0F} " + rt.show(OrZero(cur.precipitation)) + "mm/h | \U{1F4A8} "
                + rt.show(Round(OrZero(cur.windSpeed)) as real) + "km/h";
    assert s == TemperatureLabel + temp + rest;
    assert s[..k] == TemperatureLabel;
    assert s[k..k + |temp|] == temp;
  }

  /** The summary text, empty when no response with a `current` block is held. */
  function WeatherText(rt: Runtime, data: Option<WeatherData>): string {
    match data
    case Some(WeatherData(Some(cur))) => WeatherInfo(rt, cur)
    case _ => ""
  }

  /** The summary line, or "" (which the header skips) when there is no summary. */
  function WeatherLine(rt: Runtime, data: Option<WeatherData>): string {
    var info := WeatherText(rt, data);
    if info != "" then "### " + info else ""
  }

  function Unshift(line: string, lines: seq<string>): seq<string> {
    [line] + lines
  }

  /** The header put in front of `rows` by nine successive `unshift` calls. */
  function WithHeader(rows: seq<string>, title: string, dateTime: string, weather: string): (h: seq<string>)
    ensures |h| == |rows| + (if weather != "" then 9 else 8)
    ensures h[0] == Divider
    ensures h[|h| - |rows|..] == rows
  {
    var p1 := Unshift(title, rows);
    var p2 := Unshift(dateTime, p1);
    var p3 := if weather != "" then Unshift(weather, p2) else p2;
    var p4 := Unshift(Separator, p3);
    var p5 := Unshift(LegendTitle, p4);
    var p6 := Unshift(Legend1, p5);
    var p7 := Unshift(Legend2, p6);
    var p8 := Unshift(Commands, p7);
    UnshiftKeeps(title, rows, 0, rows);
    UnshiftKeeps(dateTime, p1, 1, rows);
    var n3 := if weather != "" then 3 else 2;
    UnshiftKeeps(weather, p2, 2, rows);
    UnshiftKeeps(Separator, p3, n3, rows);
    UnshiftKeeps(LegendTitle, p4, n3 + 1, rows);
    UnshiftKeeps(Legend1, p5, n3 + 2, rows);
    UnshiftKeeps(Legend2, p6, n3 + 3, rows);
    UnshiftKeeps(Commands, p7, n3 + 4, rows);
    UnshiftKeeps(Divider, p8, n3 + 5, rows);
    Unshift(Divider, p8)
  }

  /** Putting a line in front shifts whatever followed position `k` by one. */
  lemma UnshiftKeeps(line: string, lines: seq<string>, k: nat, rows: seq<string>)
    requires k <= |lines| && lines[k..] == rows
    ensures |Unshift(line, lines)| == |lines| + 1
    ensures Unshift(line, lines)[k + 1..] == rows
  {
    assert Unshift(line, lines)[k + 1..] == lines[k..];
  }

  /**
   The header lines come out in the reverse of the order they were added:
   divider, commands, the two legend lines (second first), legend title,
   separator, the weather line if any, date/time, and the title directly
   above the map rows.
   */
  lemma HeaderLayout(rows: seq<string>, title: string, dateTime: string, weather: string)
    ensures var h := WithHeader(rows, title, dateTime, weather);
            var n := if weather != "" then 9 else 8;
            && |h| == n + |rows|
            && h[n..] == rows
            && h[..6] == [Divider, Commands, Legend2, Legend1, LegendTitle, Separator]
            && h[n - 2..n] == [dateTime, title]
            && (weather != "" ==> h[6] == weather)
  {
    var p2 := Unshift(dateTime, Unshift(title, rows));
    var p3 := if weather != "" then Unshift(weather, p2) else p2;
    var h := WithHeader(rows, title, dateTime, weather);
    assert h == [Divider, Commands, Legend2, Legend1, LegendTitle, Separator] + p3;
  }

  // ---------------------------------------------------------------------
  // The frame
  // ---------------------------------------------------------------------

  /** All `height` map rows as text. */
  function MapRows(rt: Runtime, phase: real, height: nat, rd: Reading): (rows: seq<string>)
    ensures |rows| == height
    ensures forall y :: 0 <= y < height ==> rows[y] == MapRow(rt, phase, height, y, rd)
  {
    seq(height, y => MapRow(rt, phase, height, y, rd))
  }

  /**
   The lines of one segment's frame: rows `[startRow, endRow)` of the full
   map (rendered in full, then sliced), with the header block in front
   exactly when `startRow` is 0. The configured width is not an input:
   the source ignores it.
   */
  function FrameLines(rt: Runtime, phase: real, height: nat, startRow: int, endRow: int,
                      data: Option<WeatherData>, loc: Location, date: string, time: string): (lines: seq<string>)
    ensures startRow == 0 ==> |lines| >= HeaderSize(rt, data) && lines[0] == Divider
    ensures startRow != 0 ==> |lines| <= height
  {
    Framed(MapRows(rt, phase, height, ReadingOf(data)), startRow, endRow,
           Title(loc), DateTimeLine(date, time), WeatherLine(rt, data))
  }

  /** Rows `[startRow, endRow)` of `all`, under the header when `startRow` is 0. */
  function Framed(all: seq<string>, startRow: int, endRow: int,
                  title: string, dateTime: string, weather: string): (lines: seq<string>)
    ensures startRow == 0 ==> |lines| >= (if weather != "" then 9 else 8) && lines[0] == Divider
    ensures startRow != 0 ==> |lines| <= |all|
  {
    var rows := JsSlice(all, startRow, endRow);
    if startRow == 0 then WithHeader(rows, title, dateTime, weather) else rows
  }

  /** Number of header lines in a first-segment frame. */
  function HeaderSize(rt: Runtime, data: Option<WeatherData>): nat {
    if WeatherLine(rt, data) != "" then 9 else 8
  }

  /** A line made only of map symbols. */
  predicate IsMapLine(line: string) {
    forall i :: 0 <= i < |line| ==> line[i] in Symbols
  }

  /**
   For a window inside the map, a frame holds exactly rows
   `startRow..endRow-1`, after 9 header lines (8 when no observation is held)
   when the window starts at 0 and after nothing otherwise.
   */
  lemma FrameRows(rt: Runtime, phase: real, height: nat, startRow: int, endRow: int,
                  data: Option<WeatherData>, loc: Location, date: string, time: string)
    requires 0 <= startRow <= endRow <= height
    ensures var lines := FrameLines(rt, phase, height, startRow, endRow, data, loc, date, time);
            var h := if startRow == 0 then HeaderSize(rt, data) else 0;
            && |lines| == h + (endRow - startRow)
            && lines[h..] == MapRows(rt, phase, height, ReadingOf(data))[startRow..endRow]
  {
    var all := MapRows(rt, phase, height, ReadingOf(data));
    FrameWindow(all, startRow, endRow, Title(loc), DateTimeLine(date, time), WeatherLine(rt, data));
  }

  /** A window of `all` holds its rows after the header lines, if any. */
  lemma FrameWindow(all: seq<string>, start: int, end: int, title: string, dateTime: string, weather: string)
    requires 0 <= start <= end <= |all|
    ensures var lines := Framed(all, start, end, title, dateTime, weather);
            var h := if start == 0 then (if weather != "" then 9 else 8) else 0;
            && |lines| == h + (end - start)
            && lines[h..] == all[start..end]
  {
    var rows := all[start..end];
    assert JsSlice(all, start, end) == rows;
    if start == 0 {
      HeaderLayout(rows, title, dateTime, weather);
    }
  }

  /**
   A window starting at 0 begins with the divider and has the title as its
   last header line; the header is 9 lines exactly when a response with a
   `current` block is held.
   */
  lemma FrameHeader(rt: Runtime, phase: real, height: nat, endRow: int,
                    data: Option<WeatherData>, loc: Location, date: string, time: string)
    ensures var lines := FrameLines(rt, phase, height, 0, endRow, data, loc, date, time);
            var h := HeaderSize(rt, data);
            && h <= |lines|
            && lines[0] == Divider && lines[h - 1] == Title(loc)
            && (h == 9 <==> data.Some? && data.value.current.Some?)
  {
    var rows := JsSlice(MapRows(rt, phase, height, ReadingOf(data)), 0, endRow);
    var weather := WeatherLine(rt, data);
    var lines := FrameLines(rt, phase, height, 0, endRow, data, loc, date, time);
    var h := HeaderSize(rt, data);
    assert lines == WithHeader(rows, Title(loc), DateTimeLine(date, time), weather);
    HeaderLayout(rows, Title(loc), DateTimeLine(date, time), weather);
    assert lines[h - 1] == lines[h - 2..h][1];
    assert weather != "" <==> data.Some? && data.value.current.Some?;
  }

  /**
   Any other window holds map lines only, so none of the header: the divider
   that opens a header is not a map line.
   */
  lemma FrameBodyIsMap(rt: Runtime, phase: real, height: nat, startRow: int, endRow: int,
                       data: Option<WeatherData>, loc: Location, date: string, time: string)
    requires startRow != 0
    ensures var lines := FrameLines(rt, phase, height, startRow, endRow, data, loc, date, time);
            forall i :: 0 <= i < |lines| ==> IsMapLine(lines[i])
    ensures !IsMapLine(Divider)
  {
    var all := MapRows(rt, phase, height, ReadingOf(data));
    var lines := FrameLines(rt, phase, height, startRow, endRow, data, loc, date, time);
    forall i | 0 <= i < |lines|
      ensures IsMapLine(lines[i])
    {
      assert lines[i] in all;
    }
    assert Divider[0] == '\U{2550}';
    assert '\U{2550}' !in Symbols;
  }

  /**
   Without an observation (no response, or one without a `current` block)
   the map is blank: every row is 22 clear squares, whatever the phase. A
   failed fetch therefore blanks the map until a later render succeeds.
   */
  lemma NoObservationBlankMap(rt: Runtime, phase: real, height: nat, data: Option<WeatherData>)
    requires data.None? || data.value.current.None?
    ensures forall y :: 0 <= y < height ==>
              MapRows(rt, phase, height, ReadingOf(data))[y] == seq(Columns, _ => Symbols[0])
  {
    ClearSkyIsBlank(rt, phase, height, ReadingOf(data));
  }

  // ---------------------------------------------------------------------
  // Message text
  // ---------------------------------------------------------------------

  /** The number of characters in all the lines together. */
  function LineChars(lines: seq<string>): nat {
    if |lines| == 0 then 0 else |lines[0]| + LineChars(lines[1..])
  }

  /**
   `lines.join("\n")`: the first line comes first, followed by a newline when
   more lines follow, and exactly one separator goes between neighbours.
   */
  function Join(lines: seq<string>): (s: string)
    ensures |lines| > 0 ==> |s| == LineChars(lines) + |lines| - 1
    ensures |lines| > 0 ==> |lines[0]| <= |s| && s[..|lines[0]|] == lines[0]
    ensures |lines| > 1 ==> s[|lines[0]|] == '\n'
  {
    if |lines| == 0 then ""
    else if |lines| == 1 then lines[0]
    else lines[0] + "\n" + Join(lines[1..])
  }

  /** Splits a text at every newline; the inverse of `Join` on newline-free lines. */
  function SplitLines(s: string): (r: seq<string>)
    ensures |r| > 0
  {
    if |s| == 0 then [""]
    else
      var rest := SplitLines(s[1..]);
      if s[0] == '\n' then [""] + rest
      else [[s[0]] + rest[0]] + rest[1..]
  }

  predicate NoNewline(line: string) {
    '\n' !in line
  }

  lemma SplitNoNewline(line: string)
    requires NoNewline(line)
    ensures SplitLines(line) == [line]
  {
    if |line| > 0 {
      SplitNoNewline(line[1..]);
      assert [line[0]] + line[1..] == line;
    }
  }

  lemma {:induction false} SplitAfterLine(line: string, rest: string)
    requires NoNewline(line)
    ensures SplitLines(line + "\n" + rest) == [line] + SplitLines(rest)
  {
    if |line| == 0 {
      assert line + "\n" + rest == "\n" + rest;
      assert ("\n" + rest)[1..] == rest;
    } else {
      var s := line + "\n" + rest;
      assert s[1..] == line[1..] + "\n" + rest;
      SplitAfterLine(line[1..], rest);
      assert [line[0]] + line[1..] == line;
    }
  }

  /**
   A message text determines its lines: splitting the joined frame at its
   newlines gives back the lines, provided none of them holds a newline.
   */
  lemma {:induction false} SplitJoin(lines: seq<string>)
    requires |lines| > 0
    requires forall i :: 0 <= i < |lines| ==> NoNewline(lines[i])
    ensures SplitLines(Join(lines)) == lines
  {
    if |lines| == 1 {
      SplitNoNewline(lines[0]);
    } else {
      SplitJoin(lines[1..]);
      SplitAfterLine(lines[0], Join(lines[1..]));
      assert [lines[0]] + lines[1..] == lines;
    }
  }

  /** The message text of one segment's frame. */
  function FrameText(rt: Runtime, phase: real, height: nat, startRow: int, endRow: int,
                     data: Option<WeatherData>, loc: Location, date: string, time: string): string {
    Join(FrameLines(rt, phase, height, startRow, endRow, data, loc, date, time))
  }

  /** Map rows never hold a newline, so a frame without header splits back into its rows. */
  lemma BodyFrameRoundTrip(rt: Runtime, phase: real, height: nat, startRow: int, endRow: int,
                           data: Option<WeatherData>, loc: Location, date: string, time: string)
    requires 0 < startRow < endRow <= height
    ensures SplitLines(FrameText(rt, phase, height, startRow, endRow, data, loc, date, time))
            == FrameLines(rt, phase, height, startRow, endRow, data, loc, date, time)
  {
    var lines := FrameLines(rt, phase, height, startRow, endRow, data, loc, date, time);
    FrameBodyIsMap(rt, phase, height, startRow, endRow, data, loc, date, time);
    forall i | 0 <= i < |lines|
      ensures NoNewline(lines[i])
    {
      assert IsMapLine(lines[i]);
      assert '\n' !in Symbols;
    }
    SplitJoin(lines);
  }
}

=== FILE: locations.dfy ===
/**
 Choosing a location: the pick among geocoding results for a place name,
 and the probe loop that looks for somewhere with severe weather.

 The geocoding request, the forecast requests and `Math.random` are outside
 the model: their results arrive as parameters.
 */
module Locations {
  import opened Observation

  /** One entry of a geocoding response; `country` and `country_code` may be absent or `null`. */
  datatype GeoResult = GeoResult(
    name: string,
    country: Json<string>,
    countryCode: Json<string>,
    latitude: real,
    longitude: real)

  /**
   A result is preferred when its country is truthy (present, not `null`,
   not empty) and is the United States, or its country code is US.
   */
  predicate IsUsResult(r: GeoResult) {
    r.country.Value? && r.country.value != "" &&
    (r.country.value == "United States" || r.countryCode == Value("US"))
  }

  /** How a template string interpolates the country: absent gives "undefined", `null` gives "null". */
  function CountryText(country: Json<string>): string {
    match country
    case Undefined => "undefined"
    case Null => "null"
    case Value(c) => c
  }

  /** The location built from a chosen result: "name, country" and its coordinates. */
  function LocationOf(r: GeoResult): (l: Location)
    ensures l.latitude == r.latitude && l.longitude == r.longitude
    ensures |r.name| + 2 <= |l.name| && l.name[..|r.name| + 2] == r.name + ", "
    ensures l.name[|r.name| + 2..] == CountryText(r.country)
  {
    Location(r.name + ", " + CountryText(r.country), r.latitude, r.longitude)
  }

  /**
   A result whose country is `null` is named "<name>, null"; one without a
   country is named "<name>, undefined".
   */
  lemma MissingCountryName(r: GeoResult)
    ensures r.country.Null? ==> LocationOf(r).name == r.name + ", null"
    ensures r.country.Undefined? ==> LocationOf(r).name == r.name + ", undefined"
  {
  }

  /** The index of the first US result, if there is one (`Array.prototype.find`). */
  function FirstUsResult(rs: seq<GeoResult>): (i: Option<nat>)
    ensures i.Some? ==> i.value < |rs| && IsUsResult(rs[i.value])
    ensures i.Some? ==> forall j :: 0 <= j < i.value ==> !IsUsResult(rs[j])
    ensures i.None? ==> forall j :: 0 <= j < |rs| ==> !IsUsResult(rs[j])
  {
    if |rs| == 0 then None
    else if IsUsResult(rs[0]) then Some(0)
    else match FirstUsResult(rs[1..])
      case None => None
      case Some(k) => Some(k + 1)
  }

  /**
   The location for a geocoding response. No results (absent list or empty
   list) means no location; otherwise the first US result wins, and the
   first result is used when there is no US result.
   */
  function ChooseLocation(results: Option<seq<GeoResult>>): (r: Option<Location>)
    ensures r.None? <==> results.None? || |results.value| == 0
    ensures r.Some? ==>
              exists i :: 0 <= i < |results.value| && r.value == LocationOf(results.value[i]) &&
                (forall j :: 0 <= j < i ==> !IsUsResult(results.value[j])) &&
                (IsUsResult(results.value[i]) ||
                 (i == 0 && forall j :: 0 <= j < |results.value| ==> !IsUsResult(results.value[j])))
  {
    if results.None? || |results.value| == 0 then None
    else
      var rs := results.value;
      var best := match FirstUsResult(rs) case Some(i) => i case None => 0;
      Some(LocationOf(rs[best]))
  }

  // ---------------------------------------------------------------------
  // Searching for active weather
  // ---------------------------------------------------------------------

  /** At most this many random candidates are probed. */
  const MaxProbes: nat := 15

  /** One probe: the random index drawn and the forecast fetched for that candidate. */
  datatype Probe = Probe(pick: nat, response: Option<WeatherData>)

  /** The fixed list of cities the search draws from. */
  const Candidates: seq<Location> := [
      Location("Miami, FL", 25.7617, -80.1918),
      Location("New Orleans, LA", 29.9511, -90.0715),
      Location("Houston, TX", 29.7604, -95.3698),
      Location("Tampa, FL", 27.9506, -82.4572),
      Location("Oklahoma City, OK", 35.4676, -97.5164),
      Location("Kansas City, MO", 39.0997, -94.5786),
      Location("Chicago, IL", 41.8781, -87.6298),
      Location("Seattle, WA", 47.6062, -122.3321),
      Location("Portland, OR", 45.5152, -122.6784),
      Location("Atlanta, GA", 33.749, -84.388),
      Location("Denver, CO", 39.7392, -104.9903),
      Location("Phoenix, AZ", 33.4484, -112.074),
      Location("London, UK", 51.5074, -0.1278),
      Location("Paris, France", 48.8566, 2.3522),
      Location("Berlin, Germany", 52.52, 13.405),
      Location("Madrid, Spain", 40.4168, -3.7038),
      Location("Rome, Italy", 41.9028, 12.4964),
      Location("Amsterdam, Netherlands", 52.3676, 4.9041),
      Location("Vienna, Austria", 48.2082, 16.3738),
      Location("Stockholm, Sweden", 59.3293, 18.0686),
      Location("Oslo, Norway", 59.9139, 10.7522),
      Location("Copenhagen, Denmark", 55.6761, 12.5683),
      Location("Helsinki, Finland", 60.1699, 24.9384),
      Location("Warsaw, Poland", 52.2297, 21.0122),
      Location("Prague, Czech Republic", 50.0755, 14.4378),
      Location("Budapest, Hungary", 47.4979, 19.0402),
      Location("Bucharest, Romania", 44.4268, 26.1025),
      Location("Sofia, Bulgaria", 42.6977, 23.3219),
      Location("Athens, Greece", 37.9755, 23.7348),
      Location("Lisbon, Portugal", 38.7223, -9.1393),
      Location("Tokyo, Japan", 35.6762, 139.6503),
      Location("Seoul, South Korea", 37.5665, 126.978),
      Location("Beijing, China", 39.9042, 116.4074),
      Location("Shanghai, China", 31.2304, 121.4737),
      Location("Hong Kong", 22.3193, 114.1694),
      Location("Singapore", 1.3521, 103.8198),
      Location("Bangkok, Thailand", 13.7563, 100.5018),
      Location("Jakarta, Indonesia", -6.2088, 106.8456),
      Location("Manila, Philippines", 14.5995, 120.9842),
      Location("Mumbai, India", 19.076, 72.8777),
      Location("Delhi, India", 28.7041, 77.1025),
      Location("Kolkata, India", 22.5726, 88.3639),
      Location("Karachi, Pakistan", 24.8607, 67.0011),
      Location("Dhaka, Bangladesh", 23.8103, 90.4125),
      Location("Sydney, Australia", -33.8688, 151.2093),
      Location("Melbourne, Australia", -37.8136, 144.9631),
      Location("Brisbane, Australia", -27.4698, 153.0251),
      Location("Perth, Australia", -31.9505, 115.8605),
      Location("Auckland, New Zealand", -36.8485, 174.7633),
      Location("Wellington, New Zealand", -41.2865, 174.7762),
      Location("S\U{e3}o Paulo, Brazil", -23.5505, -46.6333),
      Location("Rio de Janeiro, Brazil", -22.9068, -43.1729),
      Location("Buenos Aires, Argentina", -34.6118, -58.396),
      Location("Santiago, Chile", -33.4489, -70.6693),
      Location("Lima, Peru", -12.0464, -77.0428),
      Location("Bogot\U{e1}, Colombia", 4.711, -74.0721),
      Location("Caracas, Venezuela", 10.4806, -66.9036),
      Location("Cairo, Egypt", 30.0444, 31.2357),
      Location("Lagos, Nigeria", 6.5244, 3.3792),
      Location("Nairobi, Kenya", -1.2921, 36.8219),
      Location("Cape Town, South Africa", -33.9249, 18.4241),
      Location("Johannesburg, South Africa", -26.2041, 28.0473),
      Location("Casablanca, Morocco", 33.5731, -7.5898),
      Location("Dubai, UAE", 25.2048, 55.2708),
      Location("Istanbul, Turkey", 41.0082, 28.9784),
      Location("Tel Aviv, Israel", 32.0853, 34.7818),
      Location("Riyadh, Saudi Arabia", 24.7136, 46.6753),
      Location("Toronto, Canada", 43.6532, -79.3832),
      Location("Vancouver, Canada", 49.2827, -123.1207),
      Location("Montreal, Canada", 45.5017, -73.5673),
      Location("Calgary, Canada", 51.0447, -114.0719)
    ]

  /**
   Probes candidates in the drawn order and returns the first whose forecast
   is severe; when none of the fifteen is, returns the fallback draw.
   `used` is the number of probes made.
   */
  method FindActiveLocation(probes: seq<Probe>, fallback: nat) returns (loc: Location, found: bool, used: nat)
    requires |probes| == MaxProbes
    requires forall k :: 0 <= k < |probes| ==> probes[k].pick < |Candidates|
    requires fallback < |Candidates|
    ensures loc in Candidates
    ensures found ==> 0 < used <= |probes| && ProbeQualifies(probes[used - 1].response) &&
                      loc == Candidates[probes[used - 1].pick]
    ensures found ==> forall k :: 0 <= k < used - 1 ==> !ProbeQualifies(probes[k].response)
    ensures !found ==> used == |probes| && loc == Candidates[fallback]
    ensures !found ==> forall k :: 0 <= k < |probes| ==> !ProbeQualifies(probes[k].response)
  {
    var i := 0;
    while i < MaxProbes
      invariant 0 <= i <= MaxProbes
      invariant forall k :: 0 <= k < i ==> !ProbeQualifies(probes[k].response)
    {
      var probe := probes[i];
      if ProbeQualifies(probe.response) {
        return Candidates[probe.pick], true, i + 1;
      }
      i := i + 1;
    }
    return Candidates[fallback], false, MaxProbes;
  }
}

=== FILE: observation.dfy ===
/**
 Weather observations as the radar reads them, the time-to-live cache that
 holds the most recent one, and the "severe weather" test used when
 searching for an interesting location.

 A forecast response is modelled only as far as the radar looks into it: an
 optional `current` block whose fields may each be absent, `null` or a
 number. JavaScript's `value || 0` idiom turns both absent and `null` into
 zero; other uses tell the two apart.
 */
module Observation {

  datatype Option<T> = None | Some(value: T)

  /** A JSON member as JavaScript sees it: absent (`undefined`), `null`, or a value. */
  datatype Json<T> = Undefined | Null | Value(value: T)

  /** A place on the map: shown by name, fetched by coordinates. */
  datatype Location = Location(name: string, latitude: real, longitude: real)

  /** The `current` block of a forecast response; every field may be absent or `null`. */
  datatype Current = Current(
    temperature: Json<real>,
    precipitation: Json<real>,
    weatherCode: Json<int>,
    windSpeed: Json<real>)

  /** A forecast response body; its `current` block may be absent. */
  datatype WeatherData = WeatherData(current: Option<Current>)

  /** The two numbers the renderer and the severity test read. */
  datatype Reading = Reading(precip: real, code: int)

  /** JavaScript `v || 0` on a number that may be absent or `null`. */
  function OrZero(v: Json<real>): real {
    match v
    case Value(x) => x
    case _ => 0.0
  }

  function CodeOrZero(v: Json<int>): int {
    match v
    case Value(c) => c
    case _ => 0
  }

  /**
   The reading taken from a cached response: precipitation and weather code,
   each `|| 0`. Without data, or without a `current` block, the renderer
   reads the clear-sky case, which is not severe either.
   */
  function ReadingOf(data: Option<WeatherData>): (r: Reading)
    ensures (data.None? || data.value.current.None?) ==>
              r.precip == 0.0 && r.code <= 3 && !IsSevere(r)
  {
    match data
    case Some(WeatherData(Some(cur))) =>
      Reading(OrZero(cur.precipitation), CodeOrZero(cur.weatherCode))
    case _ => Reading(0.0, 0)
  }

  // ---------------------------------------------------------------------
  // Severe weather
  // ---------------------------------------------------------------------

  /** Heavy precipitation, thunderstorm, snow, rain/freezing rain, or fog codes. */
  predicate IsSevere(r: Reading) {
    || r.precip > 1.0
    || r.code >= 95
    || (71 <= r.code <= 77)
    || (61 <= r.code <= 67)
    || (45 <= r.code <= 48)
  }

  /** A probe counts only when a response with a `current` block came back. */
  predicate ProbeQualifies(w: Option<WeatherData>) {
    w.Some? && w.value.current.Some? && IsSevere(ReadingOf(w))
  }

  /**
   A severe reading always takes the intensity branch of the renderer: it is
   never the clear-sky case (no precipitation, code at most 3).
   */
  lemma SevereIsNotClearSky(r: Reading)
    requires IsSevere(r)
    ensures r.precip > 0.0 || r.code > 3
    ensures !(r.precip == 0.0 && r.code <= 3)
  {
  }

  /** More precipitation at the same weather code never makes a severe reading ordinary. */
  lemma SevereMonotoneInPrecip(p1: real, p2: real, code: int)
    requires p1 <= p2 && IsSevere(Reading(p1, code))
    ensures IsSevere(Reading(p2, code))
  {
  }

  /**
   Requiring a `current` block changes nothing: a response without one reads
   as zero precipitation and code 0, which is not severe either.
   */
  lemma ProbeQualifiesIffSevereReading(w: Option<WeatherData>)
    ensures ProbeQualifies(w) <==> IsSevere(ReadingOf(w))
  {
  }

  // ---------------------------------------------------------------------
  // Observation cache
  // ---------------------------------------------------------------------

  /** Observations older than this many milliseconds are fetched again. */
  const TtlMs: int := 300000

  /** The last fetched response (possibly none) and when it was fetched. */
  datatype Cache = Cache(data: Option<WeatherData>, fetchedAt: int)

  /** The state before anything has been fetched. */
  const EmptyCache: Cache := Cache(None, 0)

  /** A fetch is due when nothing is held or the held value is strictly older than the TTL. */
  predicate Stale(c: Cache, now: int) {
    c.data.None? || now - c.fetchedAt > TtlMs
  }

  /**
   The check at the top of every render. When a fetch is due, the result of
   the fetch (`fetched`, which is `None` on failure) replaces the held value
   and the clock is recorded; there is no fall-back to the old value.
   Otherwise the cache is left alone and `fetched` is never looked at.
   */
  function Refresh(c: Cache, now: int, fetched: Option<WeatherData>): (r: Cache)
    ensures r.fetchedAt == now || r == c
    ensures r != c ==> Stale(c, now)
  {
    if Stale(c, now) then Cache(fetched, now) else c
  }

  /** Refetching happens exactly when the cache is stale, and overwrites both fields. */
  lemma RefreshDecision(c: Cache, now: int, fetched: Option<WeatherData>)
    ensures Stale(c, now) ==> Refresh(c, now, fetched) == Cache(fetched, now)
    ensures !Stale(c, now) ==> Refresh(c, now, fetched) == c
    ensures c.data.Some? && now - c.fetchedAt == TtlMs ==> Refresh(c, now, fetched) == c
  {
  }

  /**
   A successful fetch is reused by every render that follows within the TTL,
   whatever those renders would have fetched.
   */
  lemma SuccessfulFetchIsReused(c: Cache, t1: int, f1: Option<WeatherData>, t2: int, f2: Option<WeatherData>)
    requires Stale(c, t1) && f1.Some?
    requires t2 - t1 <= TtlMs
    ensures Refresh(Refresh(c, t1, f1), t2, f2) == Cache(f1, t1)
  {
  }

  /**
   A failed fetch drops whatever was held before, and the very next render
   fetches again, however soon it comes.
   */
  lemma FailedFetchDropsData(c: Cache, now: int, later: int, f: Option<WeatherData>)
    requires Stale(c, now)
    ensures Refresh(c, now, None).data == None
    ensures Refresh(Refresh(c, now, None), later, f) == Cache(f, later)
  {
  }
}

=== FILE: partition.dfy ===
/**
 How the map's rows are cut into message segments: `ceil(height / rows)`
 consecutive row ranges of `rows` rows each, the last one truncated at the
 bottom of the map.
 */
module Partition {

  /** A half-open row range [start, end). */
  datatype RowRange = RowRange(start: int, end: int)

  function Min(a: int, b: int): int {
    if a <= b then a else b
  }

  /**
   The number of segments, `Math.ceil(height / rowsPerMessage)`: the
   smallest count whose segments reach the bottom of the map.
   */
  function SegmentCount(height: int, rowsPerMessage: int): (n: nat)
    requires rowsPerMessage > 0
    ensures height <= n * rowsPerMessage
    ensures n > 0 ==> (n - 1) * rowsPerMessage < height
    decreases height
  {
    if height <= 0 then 0 else 1 + SegmentCount(height - rowsPerMessage, rowsPerMessage)
  }

  /** Segment `i` covers rows [i·rows, min((i+1)·rows, height)). */
  function SegmentRange(i: int, rowsPerMessage: int, height: nat): RowRange {
    RowRange(i * rowsPerMessage, Min((i + 1) * rowsPerMessage, height))
  }

  /** The row ranges of all segments, in creation order. */
  function Ranges(height: nat, rowsPerMessage: int): (rs: seq<RowRange>)
    requires rowsPerMessage > 0
    ensures |rs| == SegmentCount(height, rowsPerMessage)
    ensures forall i :: 0 <= i < |rs| ==> rs[i] == SegmentRange(i, rowsPerMessage, height)
  {
    seq(SegmentCount(height, rowsPerMessage), i => SegmentRange(i, rowsPerMessage, height))
  }

  /** Every range is non-empty and each one ends at or before the next one starts. */
  ghost predicate Ascending(rs: seq<RowRange>) {
    && (forall i :: 0 <= i < |rs| ==> rs[i].start < rs[i].end)
    && (forall i, j :: 0 <= i < j < |rs| ==> rs[i].end <= rs[j].start)
  }

  lemma MulMonotone(a: int, b: int, k: int)
    requires a <= b && k > 0
    ensures a * k <= b * k
  {
  }

  /** Segment `i` of `n` is a non-empty range inside the map. */
  lemma SegmentInside(height: nat, r: int, i: int)
    requires r > 0 && 0 <= i < SegmentCount(height, r)
    ensures 0 <= SegmentRange(i, r, height).start < SegmentRange(i, r, height).end <= height
  {
    MulMonotone(i, SegmentCount(height, r) - 1, r);
    assert (i + 1) * r == i * r + r;
  }

  /** An earlier segment ends no later than a later one starts. */
  lemma SegmentsOrdered(height: nat, r: int, i: int, j: int)
    requires r > 0 && 0 <= i < j
    ensures SegmentRange(i, r, height).end <= SegmentRange(j, r, height).start
  {
    MulMonotone(i + 1, j, r);
  }

  /** Euclidean division places `y` between two consecutive multiples of `r`. */
  lemma DivBounds(y: int, r: int)
    requires r > 0
    ensures (y / r) * r <= y < (y / r) * r + r
  {
    assert (y / r) * r + y % r == y;
  }

  /** Row `y` lies in segment `y / r`. */
  lemma RowOwner(height: nat, r: int, y: int)
    requires r > 0 && 0 <= y < height
    ensures y / r < SegmentCount(height, r)
    ensures SegmentRange(y / r, r, height).start <= y < SegmentRange(y / r, r, height).end
  {
    var n := SegmentCount(height, r);
    var q := y / r;
    DivBounds(y, r);
    assert (q + 1) * r == q * r + r;
    if q >= n {
      MulMonotone(n, q, r);
      assert false;
    }
  }

  /** Consecutive segments meet: segment `i` ends where segment `i + 1` starts. */
  lemma SegmentsMeet(height: nat, r: int, i: int)
    requires r > 0 && 0 <= i && i + 1 < SegmentCount(height, r)
    ensures SegmentRange(i, r, height).end == SegmentRange(i + 1, r, height).start
  {
    SegmentInside(height, r, i + 1);
  }

  /** There is at least one segment exactly when the map has rows. */
  lemma CountPositive(height: nat, r: int)
    requires r > 0
    ensures SegmentCount(height, r) > 0 <==> height > 0
  {
    var n := SegmentCount(height, r);
    if n > 0 {
      MulMonotone(0, n - 1, r);
    }
  }

  /** The last segment ends at the bottom of the map. */
  lemma LastSegmentEnds(height: nat, r: int)
    requires r > 0 && SegmentCount(height, r) > 0
    ensures SegmentRange(SegmentCount(height, r) - 1, r, height).end == height
  {
  }

  /**
   The ranges are non-empty, inside [0, height), ascending and pairwise
   disjoint, and consecutive ones meet.
   */
  lemma RangesAscending(height: nat, rowsPerMessage: int)
    requires rowsPerMessage > 0
    ensures Ascending(Ranges(height, rowsPerMessage))
    ensures forall i :: 0 <= i < |Ranges(height, rowsPerMessage)| ==>
              0 <= Ranges(height, rowsPerMessage)[i].start && Ranges(height, rowsPerMessage)[i].end <= height
    ensures forall i :: 0 <= i < |Ranges(height, rowsPerMessage)| - 1 ==>
              Ranges(height, rowsPerMessage)[i].end == Ranges(height, rowsPerMessage)[i + 1].start
  {
    var rs := Ranges(height, rowsPerMessage);
    var n := |rs|;
    var r := rowsPerMessage;
    forall i | 0 <= i < n
      ensures 0 <= rs[i].start < rs[i].end <= height
    {
      SegmentInside(height, r, i);
    }
    forall i, j | 0 <= i < j < n
      ensures rs[i].end <= rs[j].start
    {
      SegmentsOrdered(height, r, i, j);
    }
    forall i | 0 <= i < n - 1
      ensures rs[i].end == rs[i + 1].start
    {
      SegmentsMeet(height, r, i);
    }
  }

  /**
   The ranges cover the map: there is one exactly when the map has rows,
   the first starts at row 0, the last ends at `height`, and every row lies
   in the range numbered `row / rows`.
   */
  lemma RangesCover(height: nat, rowsPerMessage: int)
    requires rowsPerMessage > 0
    ensures |Ranges(height, rowsPerMessage)| > 0 <==> height > 0
    ensures height > 0 ==> Ranges(height, rowsPerMessage)[0].start == 0
    ensures height > 0 ==> Ranges(height, rowsPerMessage)[|Ranges(height, rowsPerMessage)| - 1].end == height
    ensures forall y :: 0 <= y < height ==>
              y / rowsPerMessage < |Ranges(height, rowsPerMessage)| &&
              Ranges(height, rowsPerMessage)[y / rowsPerMessage].start <= y < Ranges(height, rowsPerMessage)[y / rowsPerMessage].end
  {
    var rs := Ranges(height, rowsPerMessage);
    var r := rowsPerMessage;
    CountPositive(height, r);
    forall y | 0 <= y < height
      ensures y / r < |rs| && rs[y / r].start <= y < rs[y / r].end
    {
      var q := y / r;
      RowOwner(height, r, y);
      assert rs[q] == SegmentRange(q, r, height);
    }
    if height > 0 {
      LastSegmentEnds(height, r);
    }
  }

  /**
   Only the first segment starts at row 0, so exactly one message of a
   display carries the header block.
   */
  lemma OnlyFirstStartsAtZero(height: nat, rowsPerMessage: int, i: int)
    requires rowsPerMessage > 0 && 0 <= i < |Ranges(height, rowsPerMessage)|
    ensures Ranges(height, rowsPerMessage)[i].start == 0 <==> i == 0
  {
    if i > 0 {
      MulMonotone(1, i, rowsPerMessage);
    }
  }
}
